=== FILE: README.md ===
# grok-skill command-line client, modelled in Dafny

`scripts/grok.ts` is a one-shot Bun script. It reads command-line flags and
two environment variables and validates them. It then sends a single chat
completion request, with X/Twitter "live search" parameters, to the
OpenRouter API, retrying transient failures with exponential backoff. Finally
it prints a normalised JSON object: query, trimmed summary, citations, usage
and model. Every failure ends the process with an exit code for its kind.

This project models that logic as pure Dafny functions over immutable data:

- `Cli` — `parseArgs`: the left-to-right token loop. It covers scalar flags
  that take the next token (or `undefined`), list flags that collect the
  maximal run of non-`--` tokens, skipped unknown tokens, and the four flags
  validated on the spot. `CliProperties` proves whole-input properties:
  - the loop does not depend on a prefix it has already passed;
  - list flags append;
  - the last occurrence of a scalar flag wins and earlier ones are
    overridden;
  - an unknown token is ignored;
  - a bad or missing value stops with the matching usage error.
- `JsNumber` — the `Number(string)` conversion the validations rely on:
  - whitespace trim, with a blank string giving 0;
  - sign, `Infinity`, and decimals with fraction and exponent;
  - `0x`/`0o`/`0b` literals;
  - overflow to an infinity.
- `NumericGrammar` — the StrNumericLiteral grammar of ECMAScript, written on its
  own, and the proof that `Number` is NaN exactly outside it.
- `JsText` and `Sequences` — `trim`, ASCII `toLowerCase`, digit strings, and
  the insertion-ordered de-duplication of a JavaScript `Set`.
- `IsoDate` — `ensureISO`: the fixed `YYYY-MM-DD` shape, then the round trip
  through `Date.UTC`/`toISOString`. That round trip folds the month, carries
  the day into the next or previous month, and maps years 0–99 to 1900–1999.
  It is proved equivalent to "a valid calendar date with a year of at least
  100".
- `Handles` — `stripAt` and `normalizeHandles`.
- `Retry` — `computeBackoffMs` and the decision logic of `fetchWithRetry`.
  The attempts' outcomes and the `Math.random()` values are inputs. The model
  is written both as a recursive function and as the source's loop, and the
  two are proved equal.
- `Prepare` — the checks between parsing and the request, in the order the
  script makes them, and the search parameters it builds.
- `Response` — text and citation extraction. It includes the URL scan of
  `/https?:\/\/[^\s)]+/g`, the X/Twitter filter and the de-duplication.
- `Pipeline` — the whole run: usage errors are decided before any request,
  the attempt that ends the retry loop decides the rest, and exit codes come
  from `Failures`.

Four behaviours of the code are easy to miss, and the model keeps each of
them:

- `ensureISO` rejects well-shaped dates in years 0000–0099 even when they
  are valid calendar dates. `Date.UTC` maps those years to 1900–1999, so the
  `toISOString` round trip no longer reproduces the input
  (`scripts/grok.ts:122-129`). `IsoDate.EnsureIso` and
  `IsoDate.RoundTripIffValid` state this.
- A `retry-after` header is read as a number of seconds: the delay is
  `Number(header) * 1000` (`scripts/grok.ts:178`). An HTTP-date header
  therefore gives NaN, and an empty header falls back to the computed
  backoff. `Retry.StatusDelay` keeps both.
- A reported citation array is kept even when it is empty, because an empty
  array is truthy. URLs are scraped from the text only when no citation value
  is present at all (`Response.Respond`).
- The exit-code list at the top of the script names 0, 2, 3 and 4, but an
  HTTP error exits with 1 (`scripts/grok.ts:175`). `Failures.ExitCode` gives
  an HTTP failure code 1.

## Model

| member | source | states |
|---|---|---|
| Failures.ExitCode | scripts/grok.ts:13-17 | usage errors exit with 2, network/timeout errors with 3 and JSON parse errors with 4, as listed; an HTTP error, which the list leaves out, exits with 1 as the script does where it gives up on a status; each code occurs exactly for its kind |
| JsText.Trim | scripts/grok.ts:290 | the summary is a contiguous part of the text with only ECMAScript whitespace removed at both ends, and neither of its ends is whitespace |
| JsText.TrimUnique | scripts/grok.ts:290 | any text that is a core with non-whitespace ends, padded with whitespace, trims to exactly that core |
| JsText.LowerEqualIff | scripts/grok.ts:138 | two strings lower-case to the same string exactly when they differ at most in the ASCII case of their letters |
| JsText.Lower | scripts/grok.ts:138 | lower-casing keeps the length, turns each ASCII capital into its lower-case letter (32 code points above) and changes no other character |
| JsText.PaddedReadsBack | scripts/grok.ts:123-125 | a number below `10^width`, zero-padded to that width, is a digit string that reads back as the number |
| JsText.PaddedDigitsValue | scripts/grok.ts:123-126 | reading a digit string and padding it back to its width gives the same string |
| Sequences.Dedup | scripts/grok.ts:138 | `new Set` keeps each element exactly once: no duplicates, nothing added, nothing lost |
| Sequences.DedupFirstOccurrenceOrder | scripts/grok.ts:138 | kept elements appear in the order of their first occurrence in the input |
| Sequences.Take | scripts/grok.ts:138 | `slice(0, n)` keeps the first `min(n, length)` elements unchanged |
| JsNumber.StringToNumber | scripts/grok.ts:83 | `Number(s)` yields a finite value only within the double range |
| JsNumber.NumericLiteral | scripts/grok.ts:83 | a finite result is within the double range and negative only if the literal starts with `-` |
| JsNumber.DecimalNumeral | scripts/grok.ts:83 | a whitespace-padded decimal numeral converts to its value |
| JsNumber.NegativeNumeral | scripts/grok.ts:92-93 | `-` followed by a non-zero numeral converts to the negative value |
| JsNumber.BlankIsZero | scripts/grok.ts:91-97 | `Number` of an empty or all-whitespace string is 0, so a blank count is accepted as 0 |
| JsNumber.DigitFreeIsNaN | scripts/grok.ts:82-87 | text that is not blank, has no digit and is not a spelling of `Infinity` converts to NaN |
| NumericGrammar.NaNIffNotLiteral | scripts/grok.ts:82-108 | `Number(s)` is NaN exactly when `s` is not blank and its trimmed text is not a StrNumericLiteral, a grammar defined on its own (signed decimal with optional fraction and exponent, `Infinity`, or `0x`/`0o`/`0b` digits) |
| NumericGrammar.NumeralWithJunk | scripts/grok.ts:82-108 | digits followed by a character that cannot continue a literal (`12abc`, `1 2`) are no numeric literal |
| JsNumber.InfinitySpellings | scripts/grok.ts:82-87 | `Infinity` and `+Infinity` convert to positive infinity and `-Infinity` to negative infinity |
| JsNumber.FractionNumeral | scripts/grok.ts:91-97 | `w.f` converts to the whole digits plus the fraction digits over ten to their count |
| JsNumber.FractionBetween | scripts/grok.ts:91-97 | a numeral with a non-zero fraction lies strictly between two consecutive integers, so it is not an integer |
| JsNumber.ExponentNumeral | scripts/grok.ts:82-87 | `w e k` converts to the digits times ten to the `k`, or to positive infinity past the double range |
| JsNumber.NegativeExponentNumeral | scripts/grok.ts:82-87 | `w e- k` converts to the digits divided by ten to the `k` |
| JsNumber.RadixNumeral | scripts/grok.ts:82-87 | `0x`, `0o` and `0b` literals convert to their value in base 16, 8 or 2, or to positive infinity past the double range |
| JsNumber.Times | scripts/grok.ts:178 | multiplying by a positive factor keeps NaN, keeps the sign, and gives the exact product while it stays in range |
| Cli.Recognize | scripts/grok.ts:51-111 | a recognised token is exactly the spelling of the flag it is taken for |
| Cli.ParseMode | scripts/grok.ts:55-63 | `--mode` is accepted exactly for `on`, `off`, `auto`, with the matching mode; anything else, including a missing value, is the mode error |
| Cli.ParseMax | scripts/grok.ts:82-90 | `--max` is accepted exactly when `Number(value)` is finite, and stores that number |
| Cli.ParseCount | scripts/grok.ts:91-108 | `--min-faves`/`--min-views` are accepted exactly for integer values at least 0, and store that value |
| Cli.Collect | scripts/grok.ts:42-47 | the collected values are the maximal run of tokens from the start that do not begin with `--`, and parsing resumes where the run stopped |
| Cli.SetScalar | scripts/grok.ts:52-108 | an assignment succeeds exactly when the flag's own check (`--mode`, `--max`, or a count) accepts the value, and any failure is that flag's error. It stores the text itself for `--q`/`--from`/`--to` and the checked mode, number or count otherwise, and never touches the lists |
| Cli.SetScalarFrame | scripts/grok.ts:52-108 | assigning one flag succeeds or fails independently of the record, sets the same value, and leaves every other scalar field as it was |
| Cli.ParseFrom | scripts/grok.ts:49-114 | a parse error names a validated flag that occurs in the tokens, and without validated flags parsing always succeeds |
| CliProperties.CollectSuffix | scripts/grok.ts:42-47 | the run a list flag collects, and how far it reaches, depend only on the tokens from its start on |
| CliProperties.StepSuffix | scripts/grok.ts:51-111 | one pass of the loop body fails alike, advances as far and assigns the same, whatever tokens come before the current one |
| CliProperties.ParseSuffix | scripts/grok.ts:49-113 | parsing from a position depends only on the tokens from there on: tokens already passed do not influence the rest of the loop |
| CliProperties.ParsePrefixes | scripts/grok.ts:64-75 | the lists are only ever appended to |
| CliProperties.ParseFrame | scripts/grok.ts:49-113 | two runs over the same tokens fail alike and end with the same lists, and each scalar field is either equal or kept its own start value |
| CliProperties.ParseUntouched | scripts/grok.ts:49-113 | a scalar field whose flag does not occur keeps its value |
| CliProperties.UnknownTokenIgnored | scripts/grok.ts:109-111 | a token that is no flag is skipped without effect |
| CliProperties.ListFlagRun | scripts/grok.ts:64-75 | `--include`/`--exclude` append the maximal run of non-`--` tokens that follows, and parsing resumes at the token that ended the run |
| CliProperties.CollectRun | scripts/grok.ts:42-47 | a run of non-`--` tokens ended by a `--` token or the end is collected whole |
| CliProperties.LastOccurrenceWins | scripts/grok.ts:52-108 | a scalar flag that does not occur again keeps the value it assigned, and the other fields are those of parsing the rest alone |
| CliProperties.EarlierOccurrenceOverridden | scripts/grok.ts:52-108 | an earlier occurrence of a scalar flag has no effect once the flag is set again later |
| CliProperties.BadValueStops | scripts/grok.ts:55-108 | a rejected value stops parsing at once with that flag's usage error |
| CliProperties.MissingValueFails | scripts/grok.ts:55-108 | a validated flag as the last token has `undefined` as its value and fails |
| CliProperties.CountNumeralAccepted | scripts/grok.ts:91-99 | a count flag followed by a decimal numeral stores the numeral's value |
| CliProperties.CountOfNumeral | scripts/grok.ts:92-97 | a decimal numeral is an accepted count with its digit value |
| CliProperties.NegativeCountRejected | scripts/grok.ts:91-108 | a count flag followed by a negative numeral is a usage error |
| CliProperties.BlankCountIsZero | scripts/grok.ts:91-108 | `--min-faves` or `--min-views` followed by an empty or all-whitespace value succeeds and stores 0 |
| CliProperties.FractionalCountRejected | scripts/grok.ts:91-108 | `--min-faves` or `--min-views` with a non-zero fraction, such as `1.5`, is a usage error |
| CliProperties.NonNumericMaxRejected | scripts/grok.ts:82-87 | `--max` followed by a value with no digit that is not an `Infinity`, such as `abc`, fails with the `--max` error |
| CliProperties.TrailingFlagClears | scripts/grok.ts:52-54 | `--q a --q` ends with the query unset, because the last `--q` reads `undefined`; likewise for every flag that is not validated |
| CliProperties.CountOfNegative | scripts/grok.ts:92-97 | a negative numeral is rejected as a count with the flag's own error |
| CliProperties.FlagValueStored | scripts/grok.ts:52-108 | a scalar flag followed by one value succeeds exactly when that flag's check accepts the value, and stores the text for `--q`/`--from`/`--to` or the checked mode, number or count |
| CliProperties.InvalidModeRejected | scripts/grok.ts:55-63 | `--mode` followed by anything but `on`, `off` or `auto` (`--mode bogus`) fails with the mode error |
| CliProperties.MalformedMaxRejected | scripts/grok.ts:82-87 | `--max` followed by text that is neither blank nor a numeric literal fails with the `--max` error |
| CliProperties.MalformedCountRejected | scripts/grok.ts:91-108 | `--min-faves`/`--min-views` followed by text that is neither blank nor a numeric literal fails with that flag's error |
| CliProperties.NumeralWithJunkRejected | scripts/grok.ts:82-108 | `--max 12abc`, `--min-faves 5x` and the like, a numeral followed by a character that cannot continue a literal, are rejected |
| CliProperties.FlagValuePair | scripts/grok.ts:49-114 | a scalar flag followed by one value parses as exactly that one assignment, failing with its error when the value is rejected |
| IsoDate.DaysInMonth | scripts/grok.ts:124-126 | every month has between 28 and 31 days |
| IsoDate.Normalize | scripts/grok.ts:124 | carrying an out-of-range day always yields a calendar date, and a calendar date is left alone |
| IsoDate.MakeDate | scripts/grok.ts:124 | `Date.UTC` of any year, month index and day is a calendar date |
| IsoDate.YearText | scripts/grok.ts:125 | years 0–9999 render as four digits and all others start with a sign |
| IsoDate.EnsureIso | scripts/grok.ts:117-131 | absent or empty dates give no bound; otherwise the date is returned unchanged exactly when it is valid, and the error says whether the shape or the calendar was wrong |
| IsoDate.RoundTripIffValid | scripts/grok.ts:123-126 | the `Date.UTC`/`toISOString` round trip reproduces a well-shaped string exactly when it is a calendar date with a year of at least 100 |
| IsoDate.ValidRendersItself | scripts/grok.ts:123-126 | a valid date survives the round trip |
| IsoDate.MakeDateFixes | scripts/grok.ts:124 | `Date.UTC` leaves a calendar date with a year of at least 100 unchanged |
| IsoDate.FieldsRenderBack | scripts/grok.ts:123-125 | the year, month and day read from a valid date render back as the same string |
| IsoDate.FixedPointYear | scripts/grok.ts:124 | a date that `Date.UTC` maps to itself has a year of at least 100 |
| IsoDate.RenderedIsValid | scripts/grok.ts:123-126 | a string that survives the round trip is a valid date |
| IsoDate.RenderedFields | scripts/grok.ts:123-125 | a rendered calendar date of the fixed shape reads back as the same year, month and day |
| Handles.SameHandleIff | scripts/grok.ts:133-139 | two entries normalise to the same handle exactly when, once one leading `@` is dropped from each, they differ at most in ASCII case |
| Handles.StripAt | scripts/grok.ts:133-135 | exactly one leading `@` is removed, and nothing else changes |
| Handles.NormalizeHandles | scripts/grok.ts:137-139 | at most ten handles are kept. They are lower-case and free of duplicates, each is the normal form of some input, nothing is dropped unless the list was cut, and the result is empty only for an empty list |
| Handles.FirstOccurrenceOrder | scripts/grok.ts:138 | kept handles are in the order of their first occurrence |
| Handles.CutKeepsEarliest | scripts/grok.ts:138 | a handle dropped by the cut first occurs after every kept one |
| Handles.SingleAtRemoved | scripts/grok.ts:133-138 | an entry with one leading `@` no longer starts with `@` |
| Handles.OnlyOneAtRemoved | scripts/grok.ts:133-135 | `@@name` keeps its second `@` |
| Retry.BackoffMs | scripts/grok.ts:145-148 | the backoff lies between the doubled base delay and that plus 250 ms |
| Retry.StatusDelay | scripts/grok.ts:178 | without a non-empty `retry-after`, the delay is the computed backoff range; with one, it is NaN exactly when `Number` of the header is NaN, and only a header can make it negative |
| Retry.BackoffIncreasing | scripts/grok.ts:145-148 | computed backoffs grow strictly with the attempt number, whatever the jitter |
| Retry.FetchWithRetry | scripts/grok.ts:150-190 | the loop as written computes the recursive model, never makes more than the attempt budget, and fails only with an HTTP or network error |
| Retry.RetryFromStops | scripts/grok.ts:159-189 | from any attempt on, the loop stops at the first attempt that does not go on. That attempt alone decides the verdict; the delays already slept are kept, and one planned delay is added per attempt passed |
| Retry.RetryStops | scripts/grok.ts:159-189 | a whole run makes between 1 and the budget's attempts and goes on exactly past retriable answers and transport errors. The last attempt decides success, HTTP error or network error, and the delay slept after each earlier attempt is the one computed from that attempt's outcome and random value |
| Retry.PersistentRetriableStatus | scripts/grok.ts:172-179 | a server that always answers the same retriable status is asked exactly the budget of times, the run fails with that status, and the delays grow strictly |
| Retry.RateLimitedThenOk | scripts/grok.ts:165-180 | a 429 followed by a success delivers the success after one delay computed from the 429 |
| Retry.RetryAfterSeconds | scripts/grok.ts:178 | a `retry-after` of whole seconds is slept as that many thousand milliseconds |
| Prepare.ClampMax | scripts/grok.ts:215-216 | `max_search_results` always lies in 1..50: 12 when absent, the value itself inside the range, the nearer bound outside it |
| Prepare.Build | scripts/grok.ts:192-233 | the checks come in the source's order: query, then include with exclude, then API key, then the two dates. A request is built exactly when all pass. Its query, model, mode, clamped maximum, date bounds and counts come from the inputs, and never both handle filters |
| Response.RunEnd | scripts/grok.ts:283 | the greedy `[^\s)]+` stops at the first whitespace or `)` |
| Response.ScanFrom | scripts/grok.ts:283 | every match lies within the text, at or after where the scan starts |
| Response.ScanMatches | scripts/grok.ts:283 | every match starts with a scheme followed by a URL character and extends to the first stop character |
| Response.ScanOrdered | scripts/grok.ts:283 | matches are ordered and do not overlap |
| Response.ScanCovers | scripts/grok.ts:283 | every position where the pattern could match lies inside a match, so no URL is missed |
| Response.UrlsAreMatches | scripts/grok.ts:283 | each extracted URL is matched in full by the pattern |
| Response.SingleUrl | scripts/grok.ts:283 | a text that is a single URL yields exactly that URL |
| Response.XUrls | scripts/grok.ts:284 | the filter keeps exactly the X/Twitter URLs |
| Response.XUrlsAppend | scripts/grok.ts:284 | filtering a concatenation is concatenating the filtered parts |
| Response.XUrlsKeepOrder | scripts/grok.ts:284 | the filter keeps the relative order of first occurrences |
| Response.FallbackCitationsOrder | scripts/grok.ts:281-286 | the fallback citations are in the order in which each URL first appears in the text |
| Response.TextPriority | scripts/grok.ts:270-273 | the text is the message content when present, else the delta content, else empty |
| Response.CitationPriority | scripts/grok.ts:275-279 | the top-level citations win over the message's, which win over `extra.citations` |
| Response.FallbackCitations | scripts/grok.ts:281-286 | the fallback holds distinct X/Twitter URLs found in the text, includes every such URL, and is `null` exactly when there are none |
| Response.Respond | scripts/grok.ts:270-294 | the printed object has the query and the trimmed text. Its citations are the reported ones when present, else the fallback. Usage is passed through, and the model is the response's model or else the configured one |
| Response.SummaryOfPaddedContent | scripts/grok.ts:270-290 | message content padded with whitespace is summarised as its core |
| Response.LoneXUrlCited | scripts/grok.ts:281-286 | an answer that is one X URL, with no reported citations, cites exactly that URL |
| Pipeline.Send | scripts/grok.ts:150-294 | a sent request is retried within the budget, and the attempt that ends the loop decides success (a 2xx JSON body, rendered), an HTTP error, a network error or a JSON error |
| Pipeline.Invoke | scripts/grok.ts:192-294 | nothing is sent exactly when there is a usage error, which is then the result. Otherwise 1–3 attempts are made, and the last one determines success (a 2xx JSON body, rendered), an HTTP error with its non-2xx status, a network error, or a JSON error |
| Pipeline.ExitStatus | scripts/grok.ts:13-17 | exit 0 exactly on success and 2 exactly on a usage error |
| Pipeline.QueryOnlyArgs | scripts/grok.ts:52-54 | `--q <query>` alone sets the query and nothing else |
| Pipeline.InvokeQueryOnly | scripts/grok.ts:192-233 | `--q <query>` with an API key passes every check, and the run is that of sending the request built from it |
| Pipeline.MissingKeySendsNothing | scripts/grok.ts:201-211 | without an API key the run ends with exit code 2 and no attempt |
| Pipeline.FirstAnswerPrinted | scripts/grok.ts:162-165 | a successful first answer is printed after one attempt and no delay |
| Pipeline.PersistentUnavailable | scripts/grok.ts:172-176 | a server answering 503 every time ends the run with exit code 1 after three attempts and two growing delays |

## Left out

- Sending the request, its headers, the 30-second timer and the abort controller are not modelled. Each attempt is an input outcome; an attempt past the given outcomes counts as a timeout.
- `sleep` is not modelled: the delays are returned rather than waited for.
- `Math.random()` is not modelled: its values are an input sequence of reals in [0, 1).
- `console.error` diagnostics, request ids and `console.log` are not modelled: only the exit code and the printed object's fields are.
- `process.argv` and `process.env` are not modelled: they are parameters.
- JSON parsing is not modelled: a response body is "unreadable", "not JSON", or the handful of fields the script reads. `usage` is kept as opaque text.
- Non-string content and non-array citation values are not modelled, because the API shape does not produce them. `String(text)` is therefore the identity here.
- The constant parts of the request body are not modelled: the system prompt, `temperature`, `max_tokens`, `stream`, `return_citations` and the endpoint URL carry no logic.
- The `attempts`/`timeoutMs` options of `fetchWithRetry` are not modelled: the script always uses the defaults, so the budget is the constant 3. Only integer budgets are considered.
- JsNumber.StringToNumber: does not model rounding to 53-bit doubles, underflow to zero or negative zero; values are exact reals, with overflow to an infinity at the double limit.
- CliProperties.EarlierOccurrenceOverridden: does not cover a later occurrence that is the last token, which assigns `undefined`; `CliProperties.TrailingFlagClears` states that case for the flags that are not validated, and `CliProperties.MissingValueFails` for the validated ones.
- JsNumber.DecimalNumeral: states the exact value of the digits; above 2^53 the script sees the nearest double instead (`9007199254740993` becomes 9007199254740992).
- JsNumber.NegativeNumeral: states the exact negative value; above 2^53 in magnitude the script sees the nearest double instead.
- JsNumber.FractionBetween: holds of the exact value only; with more significant digits than a double keeps, the script rounds to an integer (`1.0000000000000001` is 1), which is not strictly between two integers.
- JsNumber.ExponentNumeral: the infinity threshold is the script's, but a finite value is stated exactly where the script rounds it to the nearest double (`1e23`).
- JsNumber.RadixNumeral: the infinity threshold is the script's, but values above 2^53 are stated exactly where the script rounds them (`0x20000000000001`).
- JsNumber.Times: states the exact product; the script rounds it to the nearest double (`1.1 * 1000` is 1100.0000000000002).
- CliProperties.CountNumeralAccepted: stores the exact numeral; above 2^53 the script stores the nearest double instead.
- CliProperties.CountOfNumeral: accepts with the exact digit value; above 2^53 the script's value is the nearest double.
- CliProperties.FractionalCountRejected: rejects every numeral with a non-zero fraction, but the script accepts one whose fraction is lost to rounding (`--min-faves 1.0000000000000001` is stored as 1).
- JsNumber.FractionNumeral: states the exact real value of `w.f`; the script sees the nearest double, which the model does not compute.
- JsNumber.NegativeExponentNumeral: states the exact quotient; the script sees the nearest double, or 0 after underflow.
- JsText.Lower: models ASCII lower-casing only, not full Unicode `toLowerCase`.
- Response.IsXUrl: case-insensitive matching is exact for this pattern because it contains only ASCII letters.
- IsoDate.MakeDate: does not model the ±100,000,000-day limit of `Date`, because four-digit years cannot reach it.
- Bun's `fetch` semantics beyond status, `retry-after` and body reading are not part of this model.

=== FILE: cli.dfy ===
/** `parseArgs`: a left-to-right pass over the command-line tokens. A scalar
    flag takes the next token as its value (even a token starting with `--`,
    and `undefined` past the end); `--include`/`--exclude` take the maximal
    run of following tokens that do not start with `--`; any other token is
    skipped. `--mode`, `--max`, `--min-faves` and `--min-views` validate their
    value and end the run with a usage error when it is bad. */
module Cli {
  import opened Wrappers
  import opened JsText
  import opened JsNumber
  import opened Failures

  datatype Mode = On | Off | Auto

  /** The `CLI` record: absent fields are `undefined`. */
  datatype Args = Args(
    q: Option<string>,
    mode: Option<Mode>,
    includes: seq<string>,
    excludes: seq<string>,
    from: Option<string>,
    to: Option<string>,
    max: Option<real>,
    minFaves: Option<nat>,
    minViews: Option<nat>)

  const NoArgs: Args := Args(None, None, [], [], None, None, None, None, None)

  /** The flags that take exactly one value. */
  datatype Scalar = Query | ModeOpt | FromOpt | ToOpt | MaxOpt | MinFavesOpt | MinViewsOpt {
    /** Whether the value is checked while parsing. */
    predicate Validated() {
      ModeOpt? || MaxOpt? || MinFavesOpt? || MinViewsOpt?
    }
  }

  datatype Flag = ScalarFlag(scalar: Scalar) | IncludeFlag | ExcludeFlag

  function Spelling(f: Flag): string {
    match f
    case ScalarFlag(Query) => "--q"
    case ScalarFlag(ModeOpt) => "--mode"
    case ScalarFlag(FromOpt) => "--from"
    case ScalarFlag(ToOpt) => "--to"
    case ScalarFlag(MaxOpt) => "--max"
    case ScalarFlag(MinFavesOpt) => "--min-faves"
    case ScalarFlag(MinViewsOpt) => "--min-views"
    case IncludeFlag => "--include"
    case ExcludeFlag => "--exclude"
  }

  /** The case labels of the `switch`: which flag, if any, token `t` is. */
  function Recognize(t: string): (r: Option<Flag>)
    ensures r.Some? ==> Spelling(r.value) == t
  {
    if t == "--q" then Some(ScalarFlag(Query))
    else if t == "--mode" then Some(ScalarFlag(ModeOpt))
    else if t == "--include" then Some(IncludeFlag)
    else if t == "--exclude" then Some(ExcludeFlag)
    else if t == "--from" then Some(ScalarFlag(FromOpt))
    else if t == "--to" then Some(ScalarFlag(ToOpt))
    else if t == "--max" then Some(ScalarFlag(MaxOpt))
    else if t == "--min-faves" then Some(ScalarFlag(MinFavesOpt))
    else if t == "--min-views" then Some(ScalarFlag(MinViewsOpt))
    else None
  }

  /** Every flag's spelling is recognized as that flag, so a token matching
      no case label is the spelling of no flag. */
  lemma RecognizeSpelling(f: Flag)
    ensures Recognize(Spelling(f)) == Some(f)
  {
  }

  predicate IsFlagLike(t: string) {
    StartsWith(t, "--")
  }

  /** `argv[i]`, which is `undefined` past the end. */
  function At(argv: seq<string>, i: nat): Option<string> {
    if i < |argv| then Some(argv[i]) else None
  }

  /** The flag whose bad value raises `reason`. */
  function ScalarOf(reason: UsageReason): (s: Scalar)
    requires reason in {InvalidMode, InvalidMax, InvalidMinFaves, InvalidMinViews}
    ensures s.Validated()
  {
    match reason
    case InvalidMode => ModeOpt
    case InvalidMax => MaxOpt
    case InvalidMinFaves => MinFavesOpt
    case InvalidMinViews => MinViewsOpt
  }

  /** `--mode` accepts exactly `on`, `off` or `auto`. */
  function ParseMode(v: Option<string>): (r: Result<Mode, UsageReason>)
    ensures r.Ok? <==> v == Some("on") || v == Some("off") || v == Some("auto")
    ensures r.Ok? ==> (r.value == On <==> v == Some("on")) && (r.value == Off <==> v == Some("off"))
    ensures r.Err? ==> r.error == InvalidMode
  {
    if v == Some("on") then Ok(On)
    else if v == Some("off") then Ok(Off)
    else if v == Some("auto") then Ok(Auto)
    else Err(InvalidMode)
  }

  /** `--max` accepts any finite number. */
  function ParseMax(v: Option<string>): (r: Result<real, UsageReason>)
    ensures r.Ok? <==> IsFinite(ToNumber(v))
    ensures r.Ok? ==> r.value == ToNumber(v).v
    ensures r.Err? ==> r.error == InvalidMax
  {
    var n := ToNumber(v);
    if !n.Finite? then Err(InvalidMax) else Ok(n.v)
  }

  /** `--min-faves` / `--min-views` accept only integers that are not negative. */
  function ParseCount(v: Option<string>, reason: UsageReason): (r: Result<nat, UsageReason>)
    ensures r.Ok? <==> IsInteger(ToNumber(v)) && ToNumber(v).v >= 0.0
    ensures r.Ok? ==> r.value as real == ToNumber(v).v
    ensures r.Err? ==> r.error == reason
  {
    var n := ToNumber(v);
    if !IsInteger(n) || n.v < 0.0 then Err(reason) else Ok(n.v.Floor)
  }

  /** `collect(start)`: the maximal run of tokens from `start` that do not
      start with `--`, and the index where the run stops. */
  function Collect(argv: seq<string>, start: nat): (r: (seq<string>, nat))
    requires start <= |argv|
    ensures start <= r.1 <= |argv| && r.0 == argv[start..r.1]
    ensures forall k :: start <= k < r.1 ==> !IsFlagLike(argv[k])
    ensures r.1 == |argv| || IsFlagLike(argv[r.1])
    decreases |argv| - start
  {
    if start < |argv| && !IsFlagLike(argv[start]) then
      var (values, next) := Collect(argv, start + 1);
      assert argv[start..next] == [argv[start]] + argv[start + 1..next];
      ([argv[start]] + values, next)
    else ([], start)
  }

  /** One case of the `switch` for a scalar flag: validate `v`, then assign it. */
  function SetScalar(a: Args, f: Scalar, v: Option<string>): (r: Result<Args, UsageReason>)
    ensures r.Err? ==> f.Validated() && r.error in {InvalidMode, InvalidMax, InvalidMinFaves, InvalidMinViews}
                       && ScalarOf(r.error) == f
    ensures r.Ok? ==> r.value.includes == a.includes && r.value.excludes == a.excludes
    ensures r.Ok? <==>
              && (f == ModeOpt ==> ParseMode(v).Ok?)
              && (f == MaxOpt ==> ParseMax(v).Ok?)
              && (f == MinFavesOpt ==> ParseCount(v, InvalidMinFaves).Ok?)
              && (f == MinViewsOpt ==> ParseCount(v, InvalidMinViews).Ok?)
    ensures r.Ok? && (f == Query || f == FromOpt || f == ToOpt) ==> Field(r.value, f) == TextField(v)
    ensures r.Ok? && f == ModeOpt ==> Field(r.value, f) == ModeField(Some(ParseMode(v).value))
    ensures r.Ok? && f == MaxOpt ==> Field(r.value, f) == NumberField(Some(ParseMax(v).value))
    ensures r.Ok? && f == MinFavesOpt ==> Field(r.value, f) == CountField(Some(ParseCount(v, InvalidMinFaves).value))
    ensures r.Ok? && f == MinViewsOpt ==> Field(r.value, f) == CountField(Some(ParseCount(v, InvalidMinViews).value))
  {
    match f
    case Query => Ok(a.(q := v))
    case FromOpt => Ok(a.(from := v))
    case ToOpt => Ok(a.(to := v))
    case ModeOpt =>
      var m :- ParseMode(v);
      Ok(a.(mode := Some(m)))
    case MaxOpt =>
      var n :- ParseMax(v);
      Ok(a.(max := Some(n)))
    case MinFavesOpt =>
      var n :- ParseCount(v, InvalidMinFaves);
      Ok(a.(minFaves := Some(n)))
    case MinViewsOpt =>
      var n :- ParseCount(v, InvalidMinViews);
      Ok(a.(minViews := Some(n)))
  }

  /** Assigning one scalar flag leaves every other scalar field as it was,
      and the assigned value does not depend on the record assigned to. */
  lemma SetScalarFrame(a1: Args, a2: Args, f: Scalar, v: Option<string>)
    ensures SetScalar(a1, f, v).Ok? <==> SetScalar(a2, f, v).Ok?
    ensures SetScalar(a1, f, v).Err? ==> SetScalar(a1, f, v).error == SetScalar(a2, f, v).error
    ensures SetScalar(a1, f, v).Ok? ==>
              && Field(SetScalar(a1, f, v).value, f) == Field(SetScalar(a2, f, v).value, f)
              && forall g: Scalar | g != f :: Field(SetScalar(a1, f, v).value, g) == Field(a1, g)
  {
    SetScalarSameValue(a1, a2, f, v);
    if SetScalar(a1, f, v).Ok? {
      forall g: Scalar | g != f ensures Field(SetScalar(a1, f, v).value, g) == Field(a1, g) {
        SetScalarOther(a1, f, v, g);
      }
    }
  }

  lemma SetScalarSameValue(a1: Args, a2: Args, f: Scalar, v: Option<string>)
    ensures SetScalar(a1, f, v).Ok? <==> SetScalar(a2, f, v).Ok?
    ensures SetScalar(a1, f, v).Err? ==> SetScalar(a1, f, v).error == SetScalar(a2, f, v).error
    ensures SetScalar(a1, f, v).Ok? ==> Field(SetScalar(a1, f, v).value, f) == Field(SetScalar(a2, f, v).value, f)
  {
    match f
    case Query =>
    case FromOpt =>
    case ToOpt =>
    case ModeOpt =>
    case MaxOpt =>
    case MinFavesOpt =>
    case MinViewsOpt =>
  }

  lemma SetScalarOther(a: Args, f: Scalar, v: Option<string>, g: Scalar)
    requires g != f && SetScalar(a, f, v).Ok?
    ensures Field(SetScalar(a, f, v).value, g) == Field(a, g)
  {
    match f
    case Query =>
    case FromOpt =>
    case ToOpt =>
    case ModeOpt =>
    case MaxOpt =>
    case MinFavesOpt =>
    case MinViewsOpt =>
  }

  /** The value of one scalar field, addressed by its flag. */
  datatype FieldValue =
    | TextField(text: Option<string>)
    | ModeField(m: Option<Mode>)
    | NumberField(x: Option<real>)
    | CountField(n: Option<nat>)

  function Field(a: Args, f: Scalar): FieldValue {
    match f
    case Query => TextField(a.q)
    case FromOpt => TextField(a.from)
    case ToOpt => TextField(a.to)
    case ModeOpt => ModeField(a.mode)
    case MaxOpt => NumberField(a.max)
    case MinFavesOpt => CountField(a.minFaves)
    case MinViewsOpt => CountField(a.minViews)
  }

  datatype Step = Next(index: nat, args: Args) | Stop(reason: UsageReason)

  /** One iteration of the `for` loop at token `i`: the index of the next
      token to look at (past the value of a scalar flag, or at the token that
      ended a list run), and the updated record. */
  function StepAt(argv: seq<string>, i: nat, a: Args): (s: Step)
    requires i < |argv|
    ensures s.Next? ==> s.index > i
  {
    match Recognize(argv[i])
    case Some(ScalarFlag(f)) =>
      (match SetScalar(a, f, At(argv, i + 1))
       case Ok(b) => Next(i + 2, b)
       case Err(e) => Stop(e))
    case Some(IncludeFlag) =>
      var (values, next) := Collect(argv, i + 1);
      Next(next, a.(includes := a.includes + values))
    case Some(ExcludeFlag) =>
      var (values, next) := Collect(argv, i + 1);
      Next(next, a.(excludes := a.excludes + values))
    case None =>
      Next(i + 1, a)   // unknown tokens are ignored
  }

  /** The loop from token `i` on. Only the validated flags can fail, and only
      when one of them occurs. */
  function ParseFrom(argv: seq<string>, i: nat, a: Args): (r: Result<Args, UsageReason>)
    ensures r.Err? ==> r.error in {InvalidMode, InvalidMax, InvalidMinFaves, InvalidMinViews}
                       && exists k :: i <= k < |argv| && argv[k] == Spelling(ScalarFlag(ScalarOf(r.error)))
    ensures (forall k :: i <= k < |argv| ==> Recognize(argv[k]) !in ValidatedFlags) ==> r.Ok?
    decreases if i <= |argv| then |argv| - i else 0
  {
    if i >= |argv| then Ok(a)
    else
      match StepAt(argv, i, a)
      case Stop(e) => Err(e)
      case Next(j, b) => ParseFrom(argv, j, b)
  }

  const ValidatedFlags: set<Option<Flag>> :=
    {Some(ScalarFlag(ModeOpt)), Some(ScalarFlag(MaxOpt)), Some(ScalarFlag(MinFavesOpt)), Some(ScalarFlag(MinViewsOpt))}

  function Parse(argv: seq<string>): Result<Args, UsageReason> {
    ParseFrom(argv, 0, NoArgs)
  }
}

=== FILE: cli_properties.dfy ===
/** Properties of `parseArgs` over whole token sequences: unknown tokens are
    ignored, list flags collect a maximal run and resume at the next `--`
    token, repeated list flags append, and for scalar flags the last
    occurrence wins. */
module CliProperties {
  import opened Wrappers
  import opened JsText
  import opened JsNumber
  import opened Failures
  import opened Cli
  import opened NumericGrammar

  // ---------------------------------------------------------------------
  // Parsing is position independent: a prefix already passed is irrelevant.

  /** Two positions whose remaining tokens agree. */
  predicate SameSuffix(argv1: seq<string>, i1: nat, argv2: seq<string>, i2: nat) {
    i1 <= |argv1| && i2 <= |argv2| && argv1[i1..] == argv2[i2..]
  }

  lemma SuffixHead(argv1: seq<string>, i1: nat, argv2: seq<string>, i2: nat)
    requires SameSuffix(argv1, i1, argv2, i2)
    ensures |argv1| - i1 == |argv2| - i2
    ensures i1 < |argv1| ==> argv1[i1] == argv2[i2] && SameSuffix(argv1, i1 + 1, argv2, i2 + 1)
  {
    assert |argv1[i1..]| == |argv2[i2..]|;
    if i1 < |argv1| {
      assert argv1[i1..][0] == argv1[i1] && argv2[i2..][0] == argv2[i2];
      assert argv1[i1 + 1..] == argv1[i1..][1..] && argv2[i2 + 1..] == argv2[i2..][1..];
    }
  }

  lemma {:induction false} CollectSuffix(argv1: seq<string>, i1: nat, argv2: seq<string>, i2: nat)
    requires SameSuffix(argv1, i1, argv2, i2)
    ensures Collect(argv1, i1).0 == Collect(argv2, i2).0
    ensures Collect(argv1, i1).1 - i1 == Collect(argv2, i2).1 - i2
    decreases |argv1| - i1
  {
    SuffixHead(argv1, i1, argv2, i2);
    if i1 < |argv1| && !IsFlagLike(argv1[i1]) {
      CollectSuffix(argv1, i1 + 1, argv2, i2 + 1);
    }
  }

  /** One step depends only on the tokens from the current one on. */
  lemma StepSuffix(argv1: seq<string>, i1: nat, argv2: seq<string>, i2: nat, a: Args)
    requires SameSuffix(argv1, i1, argv2, i2) && i1 < |argv1|
    ensures i2 < |argv2|
    ensures StepAt(argv1, i1, a).Stop? <==> StepAt(argv2, i2, a).Stop?
    ensures StepAt(argv1, i1, a).Stop? ==> StepAt(argv1, i1, a) == StepAt(argv2, i2, a)
    ensures StepAt(argv1, i1, a).Next? ==>
              && StepAt(argv1, i1, a).index - i1 == StepAt(argv2, i2, a).index - i2
              && StepAt(argv1, i1, a).args == StepAt(argv2, i2, a).args
  {
    SuffixHead(argv1, i1, argv2, i2);
    SuffixHead(argv1, i1 + 1, argv2, i2 + 1);
    CollectSuffix(argv1, i1 + 1, argv2, i2 + 1);
  }

  /** Parsing from a position depends only on the tokens from there on. */
  lemma {:induction false} ParseSuffix(argv1: seq<string>, i1: nat, argv2: seq<string>, i2: nat, a: Args)
    requires i1 - |argv1| == i2 - |argv2|
    requires i1 <= |argv1| ==> SameSuffix(argv1, i1, argv2, i2)
    ensures ParseFrom(argv1, i1, a) == ParseFrom(argv2, i2, a)
    decreases if i1 <= |argv1| then |argv1| - i1 else 0
  {
    if i1 < |argv1| {
      StepSuffix(argv1, i1, argv2, i2, a);
      match StepAt(argv1, i1, a)
      case Stop(_) =>
      case Next(j1, b) =>
        var j2 := StepAt(argv2, i2, a).index;
        if j1 <= |argv1| {
          assert argv1[j1..] == argv1[i1..][j1 - i1..];
          assert argv2[j2..] == argv2[i2..][j2 - i2..];
        }
        ParseSuffix(argv1, j1, argv2, j2, b);
    }
  }

  // ---------------------------------------------------------------------
  // The list fields are only ever appended to.

  function WithPrefixes(a: Args, pi: seq<string>, pe: seq<string>): Args {
    a.(includes := pi + a.includes, excludes := pe + a.excludes)
  }

  function MapPrefixes(r: Result<Args, UsageReason>, pi: seq<string>, pe: seq<string>): Result<Args, UsageReason> {
    match r
    case Ok(c) => Ok(WithPrefixes(c, pi, pe))
    case Err(e) => Err(e)
  }

  lemma SetScalarPrefixes(a: Args, f: Scalar, v: Option<string>, pi: seq<string>, pe: seq<string>)
    ensures SetScalar(WithPrefixes(a, pi, pe), f, v) == MapPrefixes(SetScalar(a, f, v), pi, pe)
  {
  }

  /** Whatever the lists held before, parsing only appends to them. */
  lemma {:induction false} ParsePrefixes(argv: seq<string>, i: nat, a: Args, pi: seq<string>, pe: seq<string>)
    ensures ParseFrom(argv, i, WithPrefixes(a, pi, pe)) == MapPrefixes(ParseFrom(argv, i, a), pi, pe)
    decreases if i <= |argv| then |argv| - i else 0
  {
    if i < |argv| {
      var a' := WithPrefixes(a, pi, pe);
      match Recognize(argv[i])
      case Some(ScalarFlag(f)) =>
        SetScalarPrefixes(a, f, At(argv, i + 1), pi, pe);
        match SetScalar(a, f, At(argv, i + 1)) {
          case Err(_) =>
          case Ok(b) => ParsePrefixes(argv, i + 2, b, pi, pe);
        }
      case Some(IncludeFlag) =>
        var (values, next) := Collect(argv, i + 1);
        assert a'.(includes := a'.includes + values) == WithPrefixes(a.(includes := a.includes + values), pi, pe);
        ParsePrefixes(argv, next, a.(includes := a.includes + values), pi, pe);
      case Some(ExcludeFlag) =>
        var (values, next) := Collect(argv, i + 1);
        assert a'.(excludes := a'.excludes + values) == WithPrefixes(a.(excludes := a.excludes + values), pi, pe);
        ParsePrefixes(argv, next, a.(excludes := a.excludes + values), pi, pe);
      case None =>
        ParsePrefixes(argv, i + 1, a, pi, pe);
    }
  }

  // ---------------------------------------------------------------------
  // Scalar fields: a field keeps its incoming value unless its flag is
  // assigned later, and an assignment makes the incoming value irrelevant.

  /** Either both runs end with the same value, or each kept its own start value. */
  predicate Kept<T(==)>(r1: T, r2: T, a1: T, a2: T) {
    r1 == r2 || (r1 == a1 && r2 == a2)
  }

  predicate FramedBy(r1: Args, r2: Args, a1: Args, a2: Args) {
    && r1.includes == r2.includes && r1.excludes == r2.excludes
    && forall g: Scalar :: Kept(Field(r1, g), Field(r2, g), Field(a1, g), Field(a2, g))
  }

  lemma KeptCompose<T>(r1: T, r2: T, b1: T, b2: T, a1: T, a2: T)
    requires Kept(r1, r2, b1, b2) && Kept(b1, b2, a1, a2)
    ensures Kept(r1, r2, a1, a2)
  {
  }

  /** Two runs over the same tokens from records with the same lists fail
      alike, and end with the same lists and, per scalar field, either the
      same value or their own starting values. */
  lemma {:induction false} ParseFrame(argv: seq<string>, i: nat, a1: Args, a2: Args)
    requires a1.includes == a2.includes && a1.excludes == a2.excludes
    ensures ParseFrom(argv, i, a1).Ok? <==> ParseFrom(argv, i, a2).Ok?
    ensures ParseFrom(argv, i, a1).Err? ==> ParseFrom(argv, i, a1).error == ParseFrom(argv, i, a2).error
    ensures ParseFrom(argv, i, a1).Ok? ==>
              FramedBy(ParseFrom(argv, i, a1).value, ParseFrom(argv, i, a2).value, a1, a2)
    decreases if i <= |argv| then |argv| - i else 0
  {
    if i < |argv| {
      var s1, s2 := StepAt(argv, i, a1), StepAt(argv, i, a2);
      match Recognize(argv[i]) {
        case Some(ScalarFlag(f)) =>
          SetScalarFrame(a1, a2, f, At(argv, i + 1));
          SetScalarFrame(a2, a1, f, At(argv, i + 1));
        case Some(IncludeFlag) =>
        case Some(ExcludeFlag) =>
        case None =>
      }
      assert s1.Stop? <==> s2.Stop?;
      if s1.Next? {
        var j, b1, b2 := s1.index, s1.args, s2.args;
        assert s2.index == j;
        assert b1.includes == b2.includes && b1.excludes == b2.excludes;
        assert forall g: Scalar :: Kept(Field(b1, g), Field(b2, g), Field(a1, g), Field(a2, g));
        ParseFrame(argv, j, b1, b2);
        if ParseFrom(argv, j, b1).Ok? {
          var r1, r2 := ParseFrom(argv, j, b1).value, ParseFrom(argv, j, b2).value;
          forall g: Scalar ensures Kept(Field(r1, g), Field(r2, g), Field(a1, g), Field(a2, g)) {
            KeptCompose(Field(r1, g), Field(r2, g), Field(b1, g), Field(b2, g), Field(a1, g), Field(a2, g));
          }
        }
      } else {
        assert s1.reason == s2.reason;
      }
    }
  }

  /** A scalar field whose flag does not occur among the remaining tokens
      keeps the value it had. */
  lemma {:induction false} ParseUntouched(argv: seq<string>, i: nat, a: Args, f: Scalar)
    requires forall k :: i <= k < |argv| ==> argv[k] != Spelling(ScalarFlag(f))
    requires ParseFrom(argv, i, a).Ok?
    ensures Field(ParseFrom(argv, i, a).value, f) == Field(a, f)
    decreases if i <= |argv| then |argv| - i else 0
  {
    if i < |argv| {
      match Recognize(argv[i]) {
        case Some(ScalarFlag(g)) =>
          assert g != f;
          SetScalarFrame(a, a, g, At(argv, i + 1));
        case Some(IncludeFlag) =>
        case Some(ExcludeFlag) =>
        case None =>
      }
      var s := StepAt(argv, i, a);
      ParseUntouched(argv, s.index, s.args, f);
    }
  }

  /** Two records are equal when their lists and all scalar fields are. */
  lemma ArgsByFields(r: Args, c: Args)
    requires r.includes == c.includes && r.excludes == c.excludes
    requires forall g: Scalar :: Field(r, g) == Field(c, g)
    ensures r == c
  {
    assert Field(r, Query) == Field(c, Query);
    assert Field(r, ModeOpt) == Field(c, ModeOpt);
    assert Field(r, FromOpt) == Field(c, FromOpt);
    assert Field(r, ToOpt) == Field(c, ToOpt);
    assert Field(r, MaxOpt) == Field(c, MaxOpt);
    assert Field(r, MinFavesOpt) == Field(c, MinFavesOpt);
    assert Field(r, MinViewsOpt) == Field(c, MinViewsOpt);
  }

  // ---------------------------------------------------------------------
  // Whole-input properties.

  /** A token that matches no flag is ignored: it never causes an error and
      never changes the result. */
  lemma UnknownTokenIgnored(t: string, rest: seq<string>)
    requires forall f: Flag :: t != Spelling(f)
    ensures Parse([t] + rest) == Parse(rest)
  {
    var argv := [t] + rest;
    assert argv[1..] == rest;
    ParseSuffix(argv, 1, rest, 0, NoArgs);
  }

  /** A list flag takes the maximal run of following tokens that do not start
      with `--`; parsing resumes at the token that ended the run, and what
      later list flags collect is appended after this run. */
  lemma ListFlagRun(flag: Flag, run: seq<string>, rest: seq<string>)
    requires flag == IncludeFlag || flag == ExcludeFlag
    requires forall k :: 0 <= k < |run| ==> !IsFlagLike(run[k])
    requires |rest| == 0 || IsFlagLike(rest[0])
    ensures Parse([Spelling(flag)] + run + rest)
         == MapPrefixes(Parse(rest), if flag == IncludeFlag then run else [],
                                     if flag == ExcludeFlag then run else [])
  {
    var argv := [Spelling(flag)] + run + rest;
    RecognizeSpelling(flag);
    CollectRun(argv, run, rest);
    var pi := if flag == IncludeFlag then run else [];
    var pe := if flag == ExcludeFlag then run else [];
    assert StepAt(argv, 0, NoArgs) == Next(1 + |run|, WithPrefixes(NoArgs, pi, pe));
    assert argv[1 + |run|..] == rest;
    ParseSuffix(argv, 1 + |run|, rest, 0, WithPrefixes(NoArgs, pi, pe));
    ParsePrefixes(rest, 0, NoArgs, pi, pe);
  }

  lemma CollectRun(argv: seq<string>, run: seq<string>, rest: seq<string>)
    requires |argv| > 0 && argv == [argv[0]] + run + rest
    requires forall k :: 0 <= k < |run| ==> !IsFlagLike(run[k])
    requires |rest| == 0 || IsFlagLike(rest[0])
    ensures Collect(argv, 1) == (run, 1 + |run|)
  {
    var (values, next) := Collect(argv, 1);
    forall k | 1 <= k < 1 + |run| ensures !IsFlagLike(argv[k]) {
      assert argv[k] == run[k - 1];
    }
    assert forall k :: 1 <= k < 1 + |run| ==> argv[k] == run[k - 1];
    assert |rest| > 0 ==> argv[1 + |run|] == rest[0];
  }

  /** For a scalar flag with no later occurrence, its value is what this
      occurrence assigned, and everything else is as if it were absent. */
  lemma LastOccurrenceWins(f: Scalar, v: string, rest: seq<string>)
    requires forall k :: 0 <= k < |rest| ==> rest[k] != Spelling(ScalarFlag(f))
    requires SetScalar(NoArgs, f, Some(v)).Ok?
    ensures Parse([Spelling(ScalarFlag(f)), v] + rest).Ok? <==> Parse(rest).Ok?
    ensures Parse(rest).Ok? ==>
              var r, c := Parse([Spelling(ScalarFlag(f)), v] + rest).value, Parse(rest).value;
              && Field(r, f) == Field(SetScalar(NoArgs, f, Some(v)).value, f)
              && (forall g: Scalar | g != f :: Field(r, g) == Field(c, g))
              && r.includes == c.includes && r.excludes == c.excludes
    ensures Parse(rest).Err? ==> Parse([Spelling(ScalarFlag(f)), v] + rest) == Parse(rest)
  {
    var argv := [Spelling(ScalarFlag(f)), v] + rest;
    var b := SetScalar(NoArgs, f, Some(v)).value;
    RecognizeSpelling(ScalarFlag(f));
    assert At(argv, 1) == Some(v);
    assert Parse(argv) == ParseFrom(argv, 2, b);
    assert argv[2..] == rest;
    ParseSuffix(argv, 2, rest, 0, b);
    SetScalarFrame(NoArgs, NoArgs, f, Some(v));
    ParseFrame(rest, 0, b, NoArgs);
    if Parse(rest).Ok? {
      ParseUntouched(rest, 0, b, f);
    }
  }

  /** Once a later occurrence assigns a scalar flag, an earlier occurrence
      has no effect at all. */
  lemma EarlierOccurrenceOverridden(f: Scalar, v: string, rest: seq<string>)
    requires SetScalar(NoArgs, f, Some(v)).Ok?
    requires Parse(rest).Ok? && Field(Parse(rest).value, f) != Field(NoArgs, f)
    ensures Parse([Spelling(ScalarFlag(f)), v] + rest) == Parse(rest)
  {
    var argv := [Spelling(ScalarFlag(f)), v] + rest;
    var b := SetScalar(NoArgs, f, Some(v)).value;
    RecognizeSpelling(ScalarFlag(f));
    assert At(argv, 1) == Some(v);
    assert Parse(argv) == ParseFrom(argv, 2, b);
    assert argv[2..] == rest;
    ParseSuffix(argv, 2, rest, 0, b);
    SetScalarFrame(NoArgs, NoArgs, f, Some(v));
    ParseFrame(rest, 0, b, NoArgs);
    var r, c := Parse(argv).value, Parse(rest).value;
    forall g: Scalar ensures Field(r, g) == Field(c, g) {
      assert Kept(Field(r, g), Field(c, g), Field(b, g), Field(NoArgs, g));
    }
    ArgsByFields(r, c);
  }

  /** A later occurrence that is the last token assigns `undefined`: for a
      flag that is not validated, `--q a --q` leaves the query unset, the
      case `EarlierOccurrenceOverridden` does not cover. */
  lemma TrailingFlagClears(f: Scalar, v: string)
    requires !f.Validated()
    ensures Parse([Spelling(ScalarFlag(f)), v, Spelling(ScalarFlag(f))]) == Ok(NoArgs)
  {
    var argv := [Spelling(ScalarFlag(f)), v, Spelling(ScalarFlag(f))];
    RecognizeSpelling(ScalarFlag(f));
    assert At(argv, 1) == Some(v) && At(argv, 3) == None;
    var b := SetScalar(NoArgs, f, Some(v)).value;
    assert StepAt(argv, 0, NoArgs) == Next(2, b);
    assert SetScalar(b, f, None) == Ok(NoArgs);
    assert StepAt(argv, 2, b) == Next(4, NoArgs);
    assert ParseFrom(argv, 2, b) == ParseFrom(argv, 4, NoArgs) == Ok(NoArgs);
    assert Parse(argv) == ParseFrom(argv, 2, b);
  }

  /** A bad value for a validated flag ends parsing with that flag's error,
      whatever follows. */
  lemma BadValueStops(f: Scalar, v: string, rest: seq<string>)
    requires SetScalar(NoArgs, f, Some(v)).Err?
    ensures f.Validated()
    ensures Parse([Spelling(ScalarFlag(f)), v] + rest) == Err(SetScalar(NoArgs, f, Some(v)).error)
  {
    RecognizeSpelling(ScalarFlag(f));
    assert At([Spelling(ScalarFlag(f)), v] + rest, 1) == Some(v);
  }

  /** A validated flag that is the last token has no value (`undefined`) and
      is an error. */
  lemma MissingValueFails(f: Scalar)
    requires f.Validated()
    ensures Parse([Spelling(ScalarFlag(f))]).Err?
  {
    RecognizeSpelling(ScalarFlag(f));
    assert At([Spelling(ScalarFlag(f))], 1) == None;
  }

  /** A scalar flag followed by one value parses as that one assignment. */
  lemma FlagValuePair(f: Scalar, v: string)
    ensures Parse([Spelling(ScalarFlag(f)), v]) == SetScalar(NoArgs, f, Some(v))
  {
    var argv := [Spelling(ScalarFlag(f)), v];
    RecognizeSpelling(ScalarFlag(f));
    assert At(argv, 1) == Some(v);
    var r := SetScalar(NoArgs, f, Some(v));
    if r.Ok? {
      assert StepAt(argv, 0, NoArgs) == Next(2, r.value);
      assert ParseFrom(argv, 2, r.value) == Ok(r.value);
    } else {
      assert StepAt(argv, 0, NoArgs) == Stop(r.error);
    }
  }

  /** A scalar flag followed by one value is accepted exactly when the
      flag's own check accepts the value, and then stores what that check
      produced: the text itself for `--q`, `--from` and `--to`, the mode,
      the number or the count. */
  lemma FlagValueStored(f: Scalar, v: string)
    ensures var r := Parse([Spelling(ScalarFlag(f)), v]);
            r.Ok? <==>
              && (f == ModeOpt ==> ParseMode(Some(v)).Ok?)
              && (f == MaxOpt ==> ParseMax(Some(v)).Ok?)
              && (f == MinFavesOpt ==> ParseCount(Some(v), InvalidMinFaves).Ok?)
              && (f == MinViewsOpt ==> ParseCount(Some(v), InvalidMinViews).Ok?)
    ensures var r := Parse([Spelling(ScalarFlag(f)), v]);
            r.Ok? && (f == Query || f == FromOpt || f == ToOpt) ==> Field(r.value, f) == TextField(Some(v))
    ensures var r := Parse([Spelling(ScalarFlag(f)), v]);
            r.Ok? && f == ModeOpt ==> Field(r.value, f) == ModeField(Some(ParseMode(Some(v)).value))
    ensures var r := Parse([Spelling(ScalarFlag(f)), v]);
            r.Ok? && f == MaxOpt ==> Field(r.value, f) == NumberField(Some(ParseMax(Some(v)).value))
    ensures var r := Parse([Spelling(ScalarFlag(f)), v]);
            r.Ok? && f == MinFavesOpt ==> Field(r.value, f) == CountField(Some(ParseCount(Some(v), InvalidMinFaves).value))
    ensures var r := Parse([Spelling(ScalarFlag(f)), v]);
            r.Ok? && f == MinViewsOpt ==> Field(r.value, f) == CountField(Some(ParseCount(Some(v), InvalidMinViews).value))
  {
    FlagValuePair(f, v);
  }

  /** `--mode` with anything but `on`, `off` or `auto`, such as
      `--mode bogus`, is the mode error. */
  lemma InvalidModeRejected(f: Scalar, v: string)
    requires f == ModeOpt
    requires v != "on" && v != "off" && v != "auto"
    ensures Parse([Spelling(ScalarFlag(f)), v]) == Err(InvalidMode)
  {
    FlagValuePair(f, v);
  }

  /** `--max` with text that is neither blank nor a numeric literal, such as
      `12abc`, is the `--max` error. */
  lemma MalformedMaxRejected(f: Scalar, v: string)
    requires f == MaxOpt
    requires !AllWhitespace(v) && !IsStrNumericLiteral(Trim(v))
    ensures Parse([Spelling(ScalarFlag(f)), v]) == Err(InvalidMax)
  {
    NaNIffNotLiteral(v);
    FlagValuePair(f, v);
  }

  /** `--min-faves`/`--min-views` with text that is neither blank nor a
      numeric literal, such as `5x`, is that flag's error. */
  lemma MalformedCountRejected(f: Scalar, v: string)
    requires f == MinFavesOpt || f == MinViewsOpt
    requires !AllWhitespace(v) && !IsStrNumericLiteral(Trim(v))
    ensures Parse([Spelling(ScalarFlag(f)), v]) == Err(if f == MinFavesOpt then InvalidMinFaves else InvalidMinViews)
  {
    NaNIffNotLiteral(v);
    FlagValuePair(f, v);
  }

  /** A numeral followed by a character that cannot continue a literal,
      as in `--max 12abc`, `--min-faves 5x` or `--max "1 2"`, is rejected. */
  lemma NumeralWithJunkRejected(f: Scalar, ds: string, c: char, rest: string)
    requires f == MaxOpt || f == MinFavesOpt || f == MinViewsOpt
    requires IsDecimalDigits(ds)
    requires !IsDigit(c) && c != '.' && c != 'e' && c != 'E'
    requires ds == "0" ==> c != 'x' && c != 'X' && c != 'o' && c != 'O' && c != 'b' && c != 'B'
    requires var t := ds + [c] + rest; !IsWhitespace(t[|t| - 1])
    ensures Parse([Spelling(ScalarFlag(f)), ds + [c] + rest]).Err?
  {
    var t := ds + [c] + rest;
    JunkIsMalformed(ds, c, rest);
    if f == MaxOpt {
      MalformedMaxRejected(f, t);
    } else {
      MalformedCountRejected(f, t);
    }
  }

  lemma JunkIsMalformed(ds: string, c: char, rest: string)
    requires IsDecimalDigits(ds)
    requires !IsDigit(c) && c != '.' && c != 'e' && c != 'E'
    requires ds == "0" ==> c != 'x' && c != 'X' && c != 'o' && c != 'O' && c != 'b' && c != 'B'
    requires var t := ds + [c] + rest; !IsWhitespace(t[|t| - 1])
    ensures var t := ds + [c] + rest; !AllWhitespace(t) && !IsStrNumericLiteral(Trim(t))
  {
    var t := ds + [c] + rest;
    assert t[0] == ds[0] && IsDigit(t[0]);
    TrimNoPadding(t);
    NumeralWithJunk(ds, c, rest);
  }

  /** `--min-faves`/`--min-views` accept a plain decimal numeral. */
  lemma CountNumeralAccepted(f: Scalar, ds: string)
    requires f == MinFavesOpt || f == MinViewsOpt
    requires |ds| > 0 && AllDigits(ds) && DigitsValue(ds) < OverflowBound
    ensures Parse([Spelling(ScalarFlag(f)), ds]).Ok?
    ensures Field(Parse([Spelling(ScalarFlag(f)), ds]).value, f) == CountField(Some(DigitsValue(ds)))
  {
    FlagValuePair(f, ds);
    CountOfNumeral(ds, if f == MinFavesOpt then InvalidMinFaves else InvalidMinViews);
  }

  lemma CountOfNumeral(ds: string, reason: UsageReason)
    requires |ds| > 0 && AllDigits(ds) && DigitsValue(ds) < OverflowBound
    ensures ParseCount(Some(ds), reason) == Ok(DigitsValue(ds))
  {
    var n := DigitsValue(ds);
    NumeralNumber(ds);
    assert IsInteger(Finite(n as real)) by {
      assert (n as real).Floor == n;
    }
  }

  /** `--min-faves`/`--min-views` reject a negative numeral. */
  lemma NegativeCountRejected(f: Scalar, ds: string)
    requires f == MinFavesOpt || f == MinViewsOpt
    requires |ds| > 0 && AllDigits(ds) && 0 < DigitsValue(ds) < OverflowBound
    ensures Parse([Spelling(ScalarFlag(f)), "-" + ds]).Err?
  {
    FlagValuePair(f, "-" + ds);
    CountOfNegative(ds, if f == MinFavesOpt then InvalidMinFaves else InvalidMinViews);
  }

  lemma CountOfNegative(ds: string, reason: UsageReason)
    requires |ds| > 0 && AllDigits(ds) && 0 < DigitsValue(ds) < OverflowBound
    ensures ParseCount(Some("-" + ds), reason) == Err(reason)
  {
    NegativeNumeral(ds);
  }

  /** A blank count, such as `--min-faves ""`, is accepted as 0:
      `Number` of a blank string is 0. */
  lemma BlankCountIsZero(f: Scalar, v: string)
    requires f == MinFavesOpt || f == MinViewsOpt
    requires AllWhitespace(v)
    ensures Parse([Spelling(ScalarFlag(f)), v]).Ok?
    ensures Field(Parse([Spelling(ScalarFlag(f)), v]).value, f) == CountField(Some(0))
  {
    FlagValuePair(f, v);
    CountOfBlank(v, if f == MinFavesOpt then InvalidMinFaves else InvalidMinViews);
  }

  lemma CountOfBlank(v: string, reason: UsageReason)
    requires AllWhitespace(v)
    ensures ParseCount(Some(v), reason) == Ok(0)
  {
    BlankIsZero(v);
    var n := ToNumber(Some(v));
    assert n == Finite(0.0);
    assert (0.0).Floor == 0;
  }

  /** A count with a non-zero fraction, such as `--min-faves 1.5`, is
      rejected. */
  lemma FractionalCountRejected(f: Scalar, w: string, d: string)
    requires f == MinFavesOpt || f == MinViewsOpt
    requires AllDigits(w) && AllDigits(d) && DigitsValue(d) > 0
    requires DigitsValue(w) + 1 < OverflowBound
    ensures Parse([Spelling(ScalarFlag(f)), w + "." + d]).Err?
  {
    FlagValuePair(f, w + "." + d);
    CountOfFraction(w, d, if f == MinFavesOpt then InvalidMinFaves else InvalidMinViews);
  }

  lemma CountOfFraction(w: string, d: string, reason: UsageReason)
    requires AllDigits(w) && AllDigits(d) && DigitsValue(d) > 0
    requires DigitsValue(w) + 1 < OverflowBound
    ensures ParseCount(Some(w + "." + d), reason) == Err(reason)
  {
    FractionBetween(w, d);
    var x := StringToNumber(w + "." + d).v;
    assert ToNumber(Some(w + "." + d)) == Finite(x);
    BetweenIntegers(DigitsValue(w), x);
  }

  lemma BetweenIntegers(a: nat, x: real)
    requires a as real < x < a as real + 1.0
    ensures !IsInteger(Finite(x))
  {
    assert x.Floor == a;
  }

  /** A `--max` with no digit that is not an `Infinity`, such as
      `--max abc`, is rejected. */
  lemma NonNumericMaxRejected(f: Scalar, v: string)
    requires f == MaxOpt
    requires !AllWhitespace(v) && !HasDigit(v)
    requires Trim(v) != "Infinity" && Trim(v) != "+Infinity" && Trim(v) != "-Infinity"
    ensures Parse([Spelling(ScalarFlag(f)), v]) == Err(InvalidMax)
  {
    MaxOfDigitFree(v);
    FlagValuePair(f, v);
  }

  lemma MaxOfDigitFree(v: string)
    requires !AllWhitespace(v) && !HasDigit(v)
    requires Trim(v) != "Infinity" && Trim(v) != "+Infinity" && Trim(v) != "-Infinity"
    ensures ParseMax(Some(v)) == Err(InvalidMax)
  {
    DigitFreeIsNaN(v);
  }
}

=== FILE: failures.dfy ===
/** The terminal error kinds of the script. Every `process.exit(n)` of the
    source becomes one of these; `ExitCode` is the outer shim that maps a
    kind back to the process exit status. */
module Failures {

  /** Why a usage/validation error (exit 2) was raised. */
  datatype UsageReason =
    | InvalidMode          // --mode not one of on | off | auto
    | InvalidMax           // --max not a finite number
    | InvalidMinFaves      // --min-faves not a non-negative integer
    | InvalidMinViews      // --min-views not a non-negative integer
    | MissingQuery         // --q absent or empty
    | IncludeWithExclude   // both --include and --exclude given
    | MissingApiKey        // credential absent or empty
    | DateNotIsoShape      // --from/--to not of the form YYYY-MM-DD
    | DateNotCalendar      // --from/--to not a real calendar date

  datatype Failure =
    | Usage(reason: UsageReason)
    | Http(status: int)     // non-retriable status, or retries exhausted on a status
    | Network               // transport error or timeout on the last attempt
    | ParseJson             // body of the accepted response is not JSON

  function ExitCode(f: Failure): (code: int)
    ensures code in {1, 2, 3, 4}
    ensures code == 2 <==> f.Usage?
    ensures code == 1 <==> f.Http?
    ensures code == 3 <==> f.Network?
    ensures code == 4 <==> f.ParseJson?
  {
    match f
    case Usage(_) => 2
    case Http(_) => 1
    case Network => 3
    case ParseJson => 4
  }
}

=== FILE: handles.dfy ===
/** `stripAt` and `normalizeHandles`: a handle list loses one leading `@`
    per entry, is lower-cased, de-duplicated keeping first occurrences, and
    cut to at most ten entries. */
module Handles {
  import opened JsText
  import opened Sequences

  const MaxHandles: nat := 10

  /** Removes one leading `@`, and only one. */
  function StripAt(h: string): (r: string)
    ensures r == h || "@" + r == h
    ensures (|h| > 0 && h[0] == '@') <==> |r| == |h| - 1
    ensures |r| < |h| ==> h[0] == '@'
  {
    if |h| > 0 && h[0] == '@' then h[1..] else h
  }

  function NormalizeOne(h: string): string {
    Lower(StripAt(h))
  }

  function NormalizeAll(list: seq<string>): (r: seq<string>)
    ensures |r| == |list|
    ensures forall k :: 0 <= k < |list| ==> r[k] == NormalizeOne(list[k])
  {
    seq(|list|, k requires 0 <= k < |list| => NormalizeOne(list[k]))
  }

  /** Two handles share a normal form exactly when, once a leading `@` is
      dropped from each, they differ at most in ASCII case: `@Foo`, `foo`
      and `FOO` are one handle. */
  lemma SameHandleIff(h: string, k: string)
    ensures NormalizeOne(h) == NormalizeOne(k) <==> EqualIgnoringAsciiCase(StripAt(h), StripAt(k))
  {
    LowerEqualIff(StripAt(h), StripAt(k));
  }

  predicate IsLowercase(h: string) {
    forall j :: 0 <= j < |h| ==> !IsUpperAscii(h[j])
  }

  /** The result is short, duplicate-free and lower-case; each entry is the
      normalised form of some input; and nothing is lost unless the cut to
      ten entries happened. */
  function NormalizeHandles(list: seq<string>): (r: seq<string>)
    ensures |r| <= MaxHandles
    ensures NoDuplicates(r)
    ensures forall i :: 0 <= i < |r| ==> IsLowercase(r[i])
    ensures forall i :: 0 <= i < |r| ==> exists k :: 0 <= k < |list| && r[i] == NormalizeOne(list[k])
    ensures |r| < MaxHandles ==> forall k :: 0 <= k < |list| ==> NormalizeOne(list[k]) in r
    ensures |list| > 0 <==> |r| > 0
  {
    var all := NormalizeAll(list);
    var d := Dedup(all);
    TakeNoDuplicates(d, MaxHandles);
    var r := Take(d, MaxHandles);
    forall i | 0 <= i < |r| ensures exists k :: 0 <= k < |list| && r[i] == NormalizeOne(list[k]) {
      KeptIsNormalized(list, r[i]);
    }
    assert |list| > 0 ==> all[0] in d;
    r
  }

  /** An entry of the normalised list is the normal form of some input entry. */
  lemma KeptIsNormalized(list: seq<string>, x: string)
    requires x in NormalizeAll(list)
    ensures exists k :: 0 <= k < |list| && x == NormalizeOne(list[k])
  {
    var k :| 0 <= k < |NormalizeAll(list)| && NormalizeAll(list)[k] == x;
    assert x == NormalizeOne(list[k]);
  }

  /** The kept entries appear in the order of their first occurrence in the
      normalised input. */
  lemma FirstOccurrenceOrder(list: seq<string>, i: nat, j: nat)
    requires i < j < |NormalizeHandles(list)|
    ensures var all, r := NormalizeAll(list), NormalizeHandles(list);
            r[i] in all && r[j] in all && FirstIndex(all, r[i]) < FirstIndex(all, r[j])
  {
    var all := NormalizeAll(list);
    DedupFirstOccurrenceOrder(all, i, j);
  }

  /** When the list is cut, what is dropped first occurs after everything
      that is kept. */
  lemma CutKeepsEarliest(list: seq<string>, x: string, i: nat)
    requires var all := NormalizeAll(list); x in all && x !in NormalizeHandles(list)
    requires i < |NormalizeHandles(list)|
    ensures var all, r := NormalizeAll(list), NormalizeHandles(list);
            r[i] in all && FirstIndex(all, r[i]) < FirstIndex(all, x)
  {
    var all := NormalizeAll(list);
    var d := Dedup(all);
    var k := FirstIndex(all, x);
    assert x in d by { assert all[k] == x; }
    var j :| 0 <= j < |d| && d[j] == x;
    assert j >= MaxHandles;
    DedupFirstOccurrenceOrder(all, i, j);
  }

  /** An entry with exactly one leading `@` loses it. */
  lemma SingleAtRemoved(h: string)
    requires |h| > 0 && h[0] == '@' && (|h| == 1 || h[1] != '@')
    ensures var r := NormalizeOne(h); |r| == 0 || r[0] != '@'
  {
    if |h| > 1 {
      assert StripAt(h)[0] == h[1];
    }
  }

  /** Only one `@` is removed: `@@a` becomes `@a`. */
  lemma OnlyOneAtRemoved(t: string)
    ensures NormalizeOne("@@" + t) == "@" + Lower(t)
  {
    var h := "@@" + t;
    assert StripAt(h) == "@" + t;
  }
}

=== FILE: http.dfy ===
/** What one attempt of the single POST can produce, seen from the script:
    a response (status, `retry-after` header, body) or a thrown error
    (connection failure, or the abort fired by the per-attempt timeout). The
    response body is reduced to the few fields the script reads. */
module Http {
  import opened Wrappers

  /** The fields of the chat-completion response that the script reads; each
      is absent when the path is `null` or `undefined`. Citation values are
      arrays of URL strings; `usage` is kept as opaque JSON text. */
  datatype ApiResponse = ApiResponse(
    messageContent: Option<string>,            // choices[0].message.content
    deltaContent: Option<string>,              // choices[0].delta.content
    citations: Option<seq<string>>,            // citations
    messageCitations: Option<seq<string>>,     // choices[0].message.citations
    extraCitations: Option<seq<string>>,       // extra.citations
    usage: Option<string>,                     // usage
    model: Option<string>)                     // model

  /** Reading the body: the read itself can throw, or the text may not be JSON. */
  datatype Body = Unreadable | NotJson | Json(response: ApiResponse)

  datatype Attempt =
    | Answered(status: int, retryAfter: Option<string>, body: Body)
    | TransportFailure

  /** `res.ok` */
  predicate IsOk(status: int) {
    200 <= status <= 299
  }
}

=== FILE: isodate.dfy ===
/** `ensureISO`: a date bound must have the lexical form `YYYY-MM-DD`
    (the calendar-date extended format of ISO 8601) and must survive a round
    trip through `Date.UTC(y, m - 1, d)` and `toISOString().slice(0, 10)`.
    `Date.UTC` reads years 0..99 as 1900..1999 and normalises an out-of-range
    month or day by carrying into the neighbouring months and years of the
    proleptic Gregorian calendar. */
module IsoDate {
  import opened Wrappers
  import opened JsText
  import opened Failures

  datatype Date = Date(year: int, month: int, day: int)

  predicate IsLeapYear(y: int) {
    (y % 4 == 0 && y % 100 != 0) || y % 400 == 0
  }

  function DaysInMonth(y: int, m: int): (n: int)
    requires 1 <= m <= 12
    ensures 28 <= n <= 31
  {
    if m == 2 then (if IsLeapYear(y) then 29 else 28)
    else if m == 4 || m == 6 || m == 9 || m == 11 then 30
    else 31
  }

  predicate IsCalendarDate(dt: Date) {
    1 <= dt.month <= 12 && 1 <= dt.day <= DaysInMonth(dt.year, dt.month)
  }

  /** `/^\d{4}-\d{2}-\d{2}$/` */
  predicate IsIsoShape(d: string) {
    && |d| == 10
    && AllDigits(d[0..4]) && d[4] == '-'
    && AllDigits(d[5..7]) && d[7] == '-'
    && AllDigits(d[8..10])
  }

  /** The three numbers of `d.split("-").map(Number)`. */
  function Fields(d: string): Date
    requires IsIsoShape(d)
  {
    Date(DigitsValue(d[0..4]), DigitsValue(d[5..7]), DigitsValue(d[8..10]))
  }

  /** The independent description of what `ensureISO` accepts: a real
      calendar date whose year is not one that `Date.UTC` reinterprets. */
  predicate IsValidIsoDate(d: string) {
    IsIsoShape(d) && Fields(d).year >= 100 && IsCalendarDate(Fields(d))
  }

  function PrevMonth(y: int, m: int): (r: (int, int))
    requires 1 <= m <= 12
    ensures 1 <= r.1 <= 12
  {
    if m == 1 then (y - 1, 12) else (y, m - 1)
  }

  function NextMonth(y: int, m: int): (r: (int, int))
    requires 1 <= m <= 12
    ensures 1 <= r.1 <= 12
  {
    if m == 12 then (y + 1, 1) else (y, m + 1)
  }

  /** Carries a day number outside the month into the months around it. */
  function Normalize(y: int, m: int, d: int): (r: Date)
    requires 1 <= m <= 12
    ensures IsCalendarDate(r)
    ensures IsCalendarDate(Date(y, m, d)) ==> r == Date(y, m, d)
    decreases if d < 1 then 1 else 0, if d < 1 then -d else d
  {
    if d < 1 then
      var (py, pm) := PrevMonth(y, m);
      Normalize(py, pm, d + DaysInMonth(py, pm))
    else if d > DaysInMonth(y, m) then
      var (ny, nm) := NextMonth(y, m);
      Normalize(ny, nm, d - DaysInMonth(y, m))
    else Date(y, m, d)
  }

  /** `Date.UTC(y, monthIndex, day)` as a calendar date. */
  function MakeDate(y: int, monthIndex: int, day: int): (r: Date)
    ensures IsCalendarDate(r)
  {
    var year := if 0 <= y <= 99 then 1900 + y else y;
    Normalize(year + monthIndex / 12, monthIndex % 12 + 1, day)
  }

  /** The decimal digits of `n` without leading zeros. */
  function DecimalDigits(n: nat): (s: string)
    ensures |s| > 0 && AllDigits(s)
  {
    if n < 10 then [DigitChar(n)] else DecimalDigits(n / 10) + [DigitChar(n % 10)]
  }

  /** `n` zero-padded to at least `width` digits. */
  function ZeroPadded(n: nat, width: nat): string {
    if n < Pow10(width) then Padded(n, width) else DecimalDigits(n)
  }

  /** The year of `toISOString`: four digits, or a sign and at least six
      digits outside 0..9999. */
  function YearText(y: int): (s: string)
    ensures 0 <= y <= 9999 ==> s == Padded(y, 4)
    ensures !(0 <= y <= 9999) ==> |s| > 0 && !IsDigit(s[0])
  {
    if 0 <= y <= 9999 then Padded(y, 4)
    else (if y < 0 then "-" else "+") + ZeroPadded(if y < 0 then -y else y, 6)
  }

  /** `toISOString().slice(0, 10)` of midnight UTC on `dt`. */
  function IsoPrefix(dt: Date): string
    requires IsCalendarDate(dt)
  {
    var full := YearText(dt.year) + "-" + Padded(dt.month, 2) + "-" + Padded(dt.day, 2);
    if |full| <= 10 then full else full[..10]
  }

  /** `toISOString().slice(0, 10)` of `Date.UTC(y, m - 1, d)`. */
  function RenderDate(dt: Date): string {
    IsoPrefix(MakeDate(dt.year, dt.month - 1, dt.day))
  }

  /** Whether the `Date.UTC`/`toISOString` round trip gives back `s`. */
  predicate RoundTrips(s: string)
    requires IsIsoShape(s)
  {
    RenderDate(Fields(s)) == s
  }

  /** `ensureISO(d)`: absent or empty input gives no bound; otherwise the
      input is returned unchanged exactly when it is a valid calendar date in
      the fixed form, and is a usage error otherwise. */
  function EnsureIso(d: Option<string>): (r: Result<Option<string>, UsageReason>)
    ensures d == None || d == Some("") ==> r == Ok(None)
    ensures d.Some? && d.value != "" ==> (r.Ok? <==> IsValidIsoDate(d.value))
    ensures d.Some? && d.value != "" && r.Ok? ==> r.value == d
    ensures r.Err? ==> r.error == (if IsIsoShape(d.value) then DateNotCalendar else DateNotIsoShape)
  {
    if d == None || d == Some("") then Ok(None)
    else if !IsIsoShape(d.value) then Err(DateNotIsoShape)
    else
      RoundTripIffValid(d.value);
      if RoundTrips(d.value) then Ok(d) else Err(DateNotCalendar)
  }

  /** The round trip through `Date.UTC` reproduces a well-shaped string
      exactly when it denotes a valid calendar date with a year of at least 100. */
  lemma RoundTripIffValid(s: string)
    requires IsIsoShape(s)
    ensures RoundTrips(s) <==> IsValidIsoDate(s)
  {
    if IsValidIsoDate(s) {
      ValidRendersItself(s);
    } else if RoundTrips(s) {
      RenderedIsValid(s);
    }
  }

  lemma ValidRendersItself(s: string)
    requires IsValidIsoDate(s)
    ensures RoundTrips(s)
  {
    MakeDateFixes(Fields(s));
    RenderFixed(Fields(s));
    FieldsRenderBack(s);
  }

  /** A valid date, rendered without the round trip, is the string it was
      read from. */
  lemma FieldsRenderBack(s: string)
    requires IsValidIsoDate(s)
    ensures IsoPrefix(Fields(s)) == s
  {
    PlainIsoPrefix(Fields(s));
    FieldsPadded(s);
    IsoParts(s);
  }

  /** `Date.UTC` leaves a calendar date with a year of at least 100 alone. */
  lemma MakeDateFixes(dt: Date)
    requires IsCalendarDate(dt) && dt.year >= 100
    ensures MakeDate(dt.year, dt.month - 1, dt.day) == dt
  {
    assert (dt.month - 1) / 12 == 0 && (dt.month - 1) % 12 == dt.month - 1;
  }

  /** A date that `Date.UTC` leaves alone renders as itself. */
  lemma RenderFixed(dt: Date)
    requires MakeDate(dt.year, dt.month - 1, dt.day) == dt
    ensures IsCalendarDate(dt) && RenderDate(dt) == IsoPrefix(dt)
  {
  }

  /** A year of four digits renders without sign or cut. */
  lemma PlainIsoPrefix(dt: Date)
    requires IsCalendarDate(dt) && 0 <= dt.year <= 9999
    ensures dt.month < Pow10(2) && dt.day < Pow10(2) && dt.year < Pow10(4)
    ensures IsoPrefix(dt) == Padded(dt.year, 4) + "-" + Padded(dt.month, 2) + "-" + Padded(dt.day, 2)
  {
    assert Pow10(2) == 100 && Pow10(4) == 10000;
  }

  /** The fields of a well-shaped string, padded back, are its digit groups. */
  lemma FieldsPadded(s: string)
    requires IsIsoShape(s)
    ensures Fields(s).year < Pow10(4) && Fields(s).month < Pow10(2) && Fields(s).day < Pow10(2)
    ensures Padded(Fields(s).year, 4) == s[0..4]
    ensures Padded(Fields(s).month, 2) == s[5..7]
    ensures Padded(Fields(s).day, 2) == s[8..10]
  {
    PaddedDigitsValue(s[0..4]);
    PaddedDigitsValue(s[5..7]);
    PaddedDigitsValue(s[8..10]);
  }

  /** A well-shaped string is its three digit groups joined by dashes. */
  lemma IsoParts(s: string)
    requires IsIsoShape(s)
    ensures s == s[0..4] + "-" + s[5..7] + "-" + s[8..10]
  {
  }

  lemma RenderedIsValid(s: string)
    requires IsIsoShape(s) && RoundTrips(s)
    ensures IsValidIsoDate(s)
  {
    var f := Fields(s);
    var dt := MakeDate(f.year, f.month - 1, f.day);
    RenderedFields(s, dt);
    FixedPointYear(f.year, f.month, f.day);
  }

  /** A date that `Date.UTC` maps to itself does not have a year below 100. */
  lemma FixedPointYear(y: nat, m: nat, d: nat)
    requires MakeDate(y, m - 1, d) == Date(y, m, d)
    ensures y >= 100
  {
  }

  /** A rendered calendar date that is well shaped reads back as itself. */
  lemma RenderedFields(s: string, dt: Date)
    requires IsIsoShape(s) && IsCalendarDate(dt) && IsoPrefix(dt) == s
    ensures Fields(s) == dt
  {
    assert 0 <= dt.year <= 9999 by {
      var full := YearText(dt.year) + "-" + Padded(dt.month, 2) + "-" + Padded(dt.day, 2);
      assert IsDigit(s[0]) by { assert s[0..4][0] == s[0]; }
      assert full[0] == YearText(dt.year)[0];
    }
    PlainIsoPrefix(dt);
    ReadBack(s, dt);
  }

  /** Digit groups that are paddings of a date's fields read back as it. */
  lemma ReadBack(s: string, dt: Date)
    requires IsIsoShape(s) && IsCalendarDate(dt) && 0 <= dt.year <= 9999
    requires dt.month < Pow10(2) && dt.day < Pow10(2) && dt.year < Pow10(4)
    requires s == Padded(dt.year, 4) + "-" + Padded(dt.month, 2) + "-" + Padded(dt.day, 2)
    ensures Fields(s) == dt
  {
    assert s[0..4] == Padded(dt.year, 4);
    assert s[5..7] == Padded(dt.month, 2);
    assert s[8..10] == Padded(dt.day, 2);
    PaddedReadsBack(dt.year, 4);
    PaddedReadsBack(dt.month, 2);
    PaddedReadsBack(dt.day, 2);
  }
}

=== FILE: jsnumber.dfy ===
/** The JavaScript `Number(x)` conversion for `x` a string or `undefined`
    (ECMAScript StringToNumber): surrounding whitespace is ignored, a blank
    string is 0, and the rest must be a signed decimal literal (with optional
    fraction and exponent), a signed `Infinity`, or an unsigned `0x`/`0o`/`0b`
    literal; anything else is NaN. Values are exact reals; a magnitude that
    IEEE-754 double rounding sends to infinity becomes `Infinity`. */
module JsNumber {
  import opened Wrappers
  import opened JsText

  datatype Number = Finite(v: real) | NaN | Infinity(negative: bool)

  /** 2^1024 - 2^970: the least magnitude that round-to-nearest-even carries
      past the largest finite double. */
  const OverflowBound: int := 179769313486231580793728971405303415079934132710037826936173778980444968292764750946649017977587207096330286416692887910946555547851940402630657488671505820681908902000708383676273854845817711531764475730270069855571366959622842914819860834936475292719074168444365510704342711559699508093042880177904174497792

  /** `Number.isFinite` */
  predicate IsFinite(n: Number) {
    n.Finite?
  }

  /** `Number.isInteger` */
  predicate IsInteger(n: Number) {
    n.Finite? && n.v == n.v.Floor as real
  }

  /** `Number(arg)`; an absent argument (`undefined`) is NaN. */
  function ToNumber(arg: Option<string>): Number {
    match arg
    case None => NaN
    case Some(s) => StringToNumber(s)
  }

  function StringToNumber(s: string): (n: Number)
    ensures n.Finite? ==> -(OverflowBound as real) < n.v < OverflowBound as real
  {
    var t := Trim(s);
    if |t| == 0 then Finite(0.0) else NumericLiteral(t)
  }

  /** A non-blank, trimmed literal. */
  function NumericLiteral(t: string): (n: Number)
    requires |t| > 0
    ensures n.Finite? ==> -(OverflowBound as real) < n.v < OverflowBound as real
    ensures n.Finite? && n.v < 0.0 ==> t[0] == '-'
  {
    if |t| >= 2 && t[0] == '0' && Radix(t[1]) > 0 then NonDecimal(t[2..], Radix(t[1]))
    else if t[0] == '+' then Unsigned(t[1..], false)
    else if t[0] == '-' then Unsigned(t[1..], true)
    else Unsigned(t, false)
  }

  /** The radix named by the second character of `0x`, `0o` or `0b`, or 0. */
  function Radix(c: char): nat {
    if c == 'x' || c == 'X' then 16
    else if c == 'o' || c == 'O' then 8
    else if c == 'b' || c == 'B' then 2
    else 0
  }

  function RadixDigit(c: char): (d: nat)
    ensures d <= 16
  {
    if '0' <= c <= '9' then c as int - '0' as int
    else if 'a' <= c <= 'f' then c as int - 'a' as int + 10
    else if 'A' <= c <= 'F' then c as int - 'A' as int + 10
    else 16
  }

  predicate AllRadixDigits(s: string, radix: nat) {
    forall i :: 0 <= i < |s| ==> RadixDigit(s[i]) < radix
  }

  function RadixValue(s: string, radix: nat): nat
    requires AllRadixDigits(s, radix)
  {
    if |s| == 0 then 0 else RadixValue(s[..|s| - 1], radix) * radix + RadixDigit(s[|s| - 1])
  }

  function NonDecimal(ds: string, radix: nat): (n: Number)
    ensures n.Finite? ==> 0.0 <= n.v < OverflowBound as real
  {
    if |ds| > 0 && AllRadixDigits(ds, radix) then Rounded(RadixValue(ds, radix) as real, false)
    else NaN
  }

  /** Applies the sign to a non-negative magnitude, overflowing to infinity. */
  function Rounded(x: real, negative: bool): (n: Number)
    requires x >= 0.0
    ensures n.Finite? ==> -(OverflowBound as real) < n.v < OverflowBound as real
    ensures n.Finite? && n.v < 0.0 ==> negative
  {
    if x >= OverflowBound as real then Infinity(negative)
    else Finite(if negative then -x else x)
  }

  /** `n * k` for a positive finite factor `k`: the sign is kept, NaN stays
      NaN, and a product past the largest double becomes an infinity. */
  function Times(n: Number, k: real): (r: Number)
    requires k > 0.0
    ensures r.NaN? <==> n.NaN?
    ensures r.Finite? ==> n.Finite? && -(OverflowBound as real) < r.v < OverflowBound as real
    ensures n.Finite? && -(OverflowBound as real) < n.v * k < OverflowBound as real ==> r == Finite(n.v * k)
    ensures r.Infinity? ==> r.negative == ((n.Infinity? && n.negative) || (n.Finite? && n.v < 0.0))
  {
    match n
    case Finite(v) => if v < 0.0 then Rounded(-v * k, true) else Rounded(v * k, false)
    case NaN => NaN
    case Infinity(neg) => Infinity(neg)
  }

  function Unsigned(u: string, negative: bool): (n: Number)
    ensures n.Finite? ==> -(OverflowBound as real) < n.v < OverflowBound as real
    ensures n.Finite? && n.v < 0.0 ==> negative
  {
    if u == "Infinity" then Infinity(negative)
    else
      match DecimalValue(u)
      case None => NaN
      case Some(x) => Rounded(x, negative)
  }

  /** The end of the run of decimal digits that starts at `i`. */
  function DigitRun(u: string, i: nat): (j: nat)
    requires i <= |u|
    ensures i <= j <= |u| && AllDigits(u[i..j])
    ensures j == |u| || !IsDigit(u[j])
    decreases |u| - i
  {
    if i < |u| && IsDigit(u[i]) then
      var j := DigitRun(u, i + 1);
      assert u[i..j] == [u[i]] + u[i + 1..j];
      j
    else i
  }

  /** A decimal literal cut into its integer digits, its fraction digits
      (after a `.`) and the rest, which must be an exponent part. */
  datatype DecimalParts = DecimalParts(whole: string, fraction: string, exponent: string)

  function SplitDecimal(u: string): (p: DecimalParts)
    ensures AllDigits(p.whole) && AllDigits(p.fraction)
    ensures |p.whole| > 0 ==> |u| > 0 && IsDigit(u[0])
    ensures |p.whole| == 0 && |p.fraction| > 0 ==> |u| > 1 && IsDigit(u[1])
  {
    var ip := DigitRun(u, 0);
    if ip < |u| && u[ip] == '.' then
      var fe := DigitRun(u, ip + 1);
      assert fe > ip + 1 ==> IsDigit(u[ip + 1]) by {
        if fe > ip + 1 { assert u[ip + 1..fe][0] == u[ip + 1]; }
      }
      assert ip > 0 ==> IsDigit(u[0]) by {
        if ip > 0 { assert u[0..ip][0] == u[0]; }
      }
      DecimalParts(u[..ip], u[ip + 1..fe], u[fe..])
    else
      assert ip > 0 ==> IsDigit(u[0]) by {
        if ip > 0 { assert u[0..ip][0] == u[0]; }
      }
      DecimalParts(u[..ip], "", u[ip..])
  }

  /** The value of `digits [. digits] [exp]` or `. digits [exp]`: at least
      one digit before the exponent. */
  function PartsValue(p: DecimalParts): (r: Option<real>)
    requires AllDigits(p.whole) && AllDigits(p.fraction)
    ensures r.Some? ==> r.value >= 0.0 && |p.whole| + |p.fraction| > 0
  {
    if |p.whole| == 0 && |p.fraction| == 0 then None
    else
      match ExponentValue(p.exponent)
      case None => None
      case Some(e) => Some(Scaled(DigitsValue(p.whole + p.fraction), e - |p.fraction|))
  }

  /** `m * 10^k` */
  function Scaled(m: nat, k: int): (x: real)
    ensures x >= 0.0
    ensures k == 0 ==> x == m as real
    decreases if k < 0 then -k else k
  {
    if k == 0 then m as real
    else if k > 0 then 10.0 * Scaled(m, k - 1)
    else Scaled(m, k + 1) / 10.0
  }

  /** StrUnsignedDecimalLiteral without `Infinity`. */
  function DecimalValue(u: string): (r: Option<real>)
    ensures r.Some? ==> r.value >= 0.0
    ensures r.Some? ==> HasDigit(u)
  {
    PartsValue(SplitDecimal(u))
  }

  predicate HasDigit(s: string) {
    exists i :: 0 <= i < |s| && IsDigit(s[i])
  }

  /** ExponentPart: empty (exponent 0) or `e`/`E`, optional sign, digits. */
  function ExponentValue(x: string): Option<int> {
    if |x| == 0 then Some(0)
    else if x[0] != 'e' && x[0] != 'E' then None
    else
      var y := x[1..];
      if |y| > 0 && y[0] == '+' then DigitsOnly(y[1..])
      else if |y| > 0 && y[0] == '-' then
        match DigitsOnly(y[1..])
        case None => None
        case Some(d) => Some(-d)
      else DigitsOnly(y)
  }

  function DigitsOnly(z: string): Option<int> {
    if |z| > 0 && AllDigits(z) then Some(DigitsValue(z)) else None
  }

  /** A plain decimal numeral, possibly padded with whitespace, converts to
      its value. */
  lemma DecimalNumeral(pre: string, ds: string, post: string)
    requires AllWhitespace(pre) && AllWhitespace(post)
    requires |ds| > 0 && AllDigits(ds) && DigitsValue(ds) < OverflowBound
    ensures StringToNumber(pre + ds + post) == Finite(DigitsValue(ds) as real)
  {
    assert !IsWhitespace(ds[0]) && !IsWhitespace(ds[|ds| - 1]);
    TrimPadded(pre, ds, post);
    UnsignedNumeral(ds);
  }

  /** A decimal numeral converts to its value. */
  lemma NumeralNumber(ds: string)
    requires |ds| > 0 && AllDigits(ds) && DigitsValue(ds) < OverflowBound
    ensures ToNumber(Some(ds)) == Finite(DigitsValue(ds) as real)
  {
    assert "" + ds + "" == ds;
    DecimalNumeral("", ds, "");
  }

  /** A numeral below a million, multiplied by a thousand, stays exact. */
  lemma ThousandfoldNumeral(ds: string)
    requires |ds| > 0 && AllDigits(ds) && DigitsValue(ds) < 1000000
    ensures Times(ToNumber(Some(ds)), 1000.0) == Finite(DigitsValue(ds) as real * 1000.0)
  {
    NumeralNumber(ds);
    ThousandfoldOf(ToNumber(Some(ds)), DigitsValue(ds) as real);
  }

  lemma ThousandfoldOf(n: Number, v: real)
    requires 0.0 <= v < 1000000.0 && n == Finite(v)
    ensures Times(n, 1000.0) == Finite(v * 1000.0)
  {
    TimesThousand(v);
  }

  lemma TimesThousand(x: real)
    requires 0.0 <= x < 1000000.0
    ensures Times(Finite(x), 1000.0) == Finite(x * 1000.0)
  {
    assert x * 1000.0 < 1000000000.0;
  }

  /** A minus sign in front of a non-zero numeral gives a negative number. */
  lemma NegativeNumeral(ds: string)
    requires |ds| > 0 && AllDigits(ds) && 0 < DigitsValue(ds) < OverflowBound
    ensures StringToNumber("-" + ds) == Finite(-(DigitsValue(ds) as real))
  {
    var s := "-" + ds;
    assert s[0] == '-' && s[1..] == ds && s[|s| - 1] == ds[|ds| - 1];
    assert IsDigit(ds[|ds| - 1]);
    TrimmedLiteral(s);
    MinusLiteral(ds);
    DigitsDecimalValue(ds);
  }

  lemma MinusLiteral(u: string)
    ensures NumericLiteral("-" + u) == Unsigned(u, true)
  {
    assert ("-" + u)[0] == '-' && ("-" + u)[1..] == u;
  }

  /** An unsigned numeral takes the decimal branch of the literal grammar. */
  lemma UnsignedNumeral(ds: string)
    requires |ds| > 0 && AllDigits(ds) && DigitsValue(ds) < OverflowBound
    ensures NumericLiteral(ds) == Finite(DigitsValue(ds) as real)
  {
    if |ds| >= 2 {
      assert IsDigit(ds[1]);
    }
    LiteralStartingWithDigit(ds);
    DigitsDecimalValue(ds);
  }

  lemma LiteralStartingWithDigit(t: string)
    requires |t| > 0 && IsDigit(t[0]) && (|t| >= 2 ==> IsDigit(t[1]))
    ensures NumericLiteral(t) == Unsigned(t, false)
  {
    if |t| >= 2 {
      assert Radix(t[1]) == 0;
    }
  }

  lemma LiteralWithoutRadix(t: string)
    requires |t| > 0 && (IsDigit(t[0]) || t[0] == '.') && (|t| >= 2 ==> Radix(t[1]) == 0)
    ensures NumericLiteral(t) == Unsigned(t, false)
  {
  }

  lemma UnsignedDecimal(u: string, x: real)
    requires |u| > 0 && u[0] != 'I' && DecimalValue(u) == Some(x)
    ensures Unsigned(u, false) == Rounded(x, false)
  {
    assert u != "Infinity";
  }

  lemma DigitsDecimalValue(ds: string)
    requires |ds| > 0 && AllDigits(ds)
    ensures DecimalValue(ds) == Some(DigitsValue(ds) as real)
    ensures ds != "Infinity"
  {
    SplitDigits(ds);
    WholeValue(ds);
    assert IsDigit(ds[0]);
  }

  lemma SplitDigits(ds: string)
    requires AllDigits(ds)
    ensures SplitDecimal(ds) == DecimalParts(ds, "", "")
  {
    DigitRunTo(ds, 0, |ds|);
    assert ds[..|ds|] == ds && ds[|ds|..] == "";
  }

  lemma WholeValue(ds: string)
    requires |ds| > 0 && AllDigits(ds)
    ensures PartsValue(DecimalParts(ds, "", "")) == Some(DigitsValue(ds) as real)
  {
    var p := DecimalParts(ds, "", "");
    assert ExponentValue(p.exponent) == Some(0);
    assert p.whole + p.fraction == ds;
    assert Scaled(DigitsValue(ds), 0) == DigitsValue(ds) as real;
  }

  /** `DigitRun` stops at the first character that is not a digit. */
  lemma {:induction false} DigitRunTo(u: string, i: nat, j: nat)
    requires i <= j <= |u| && AllDigits(u[i..j]) && (j == |u| || !IsDigit(u[j]))
    ensures DigitRun(u, i) == j
    decreases j - i
  {
    if i < j {
      assert IsDigit(u[i..j][0]);
      assert u[i + 1..j] == u[i..j][1..];
      DigitRunTo(u, i + 1, j);
    }
  }

  /** Digits, a point, digits. */
  lemma SplitFraction(w: string, f: string)
    requires AllDigits(w) && AllDigits(f)
    ensures SplitDecimal(w + "." + f) == DecimalParts(w, f, "")
  {
    var u := w + "." + f;
    var p := |w| + 1;
    assert u[..|w|] == w && u[p..|u|] == f && u[|u|..] == "";
    DigitRunTo(u, 0, |w|);
    DigitRunTo(u, p, |u|);
  }

  /** Digits followed by something that is neither a digit nor a point. */
  lemma SplitWhole(w: string, x: string)
    requires AllDigits(w) && (|x| == 0 || (!IsDigit(x[0]) && x[0] != '.'))
    ensures SplitDecimal(w + x) == DecimalParts(w, "", x)
  {
    var u := w + x;
    assert u[..|w|] == w && u[|w|..] == x;
    DigitRunTo(u, 0, |w|);
  }

  /** The value of `w f` is that of `w` shifted past the digits of `f`. */
  lemma {:induction false} DigitsAppend(w: string, f: string)
    requires AllDigits(w) && AllDigits(f)
    ensures AllDigits(w + f)
    ensures DigitsValue(w + f) == DigitsValue(w) * Pow10(|f|) + DigitsValue(f)
  {
    if |f| == 0 {
      assert w + f == w;
    } else {
      var g := f[..|f| - 1];
      var c := f[|f| - 1];
      assert (w + f)[..|w + f| - 1] == w + g && (w + f)[|w + f| - 1] == c;
      DigitsAppend(w, g);
      var a, p, v := DigitsValue(w), Pow10(|g|), DigitsValue(g);
      assert DigitsValue(w + f) == (a * p + v) * 10 + DigitValue(c);
      assert DigitsValue(f) == v * 10 + DigitValue(c);
      assert Pow10(|f|) == p * 10;
      MulTen(a, p);
    }
  }

  lemma MulTen(a: nat, p: nat)
    ensures a * (p * 10) == (a * p) * 10
  {
  }

  /** `Scaled` with a negative exponent divides by a power of ten. */
  lemma {:induction false} ScaledDown(m: nat, k: nat)
    ensures Scaled(m, -(k as int)) == m as real / Pow10(k) as real
  {
    if k > 0 {
      ScaledDown(m, k - 1);
      var p := Pow10(k - 1) as real;
      assert Pow10(k) as real == 10.0 * p;
      assert (m as real / p) / 10.0 == m as real / (10.0 * p);
    }
  }

  /** `Scaled` with a non-negative exponent multiplies by a power of ten. */
  lemma {:induction false} ScaledUp(m: nat, k: nat)
    ensures Scaled(m, k) == (m * Pow10(k)) as real
  {
    if k > 0 {
      ScaledUp(m, k - 1);
      var p := Pow10(k - 1);
      assert Pow10(k) == 10 * p;
      assert Scaled(m, k) == 10.0 * (m * p) as real;
      assert 10 * (m * p) == m * (10 * p);
    }
  }


  /** A literal that neither starts nor ends with whitespace is read as it
      stands. */
  lemma TrimmedLiteral(t: string)
    requires |t| > 0 && !IsWhitespace(t[0]) && !IsWhitespace(t[|t| - 1])
    ensures StringToNumber(t) == NumericLiteral(t)
  {
    TrimNoPadding(t);
  }

  /** A blank string, the empty one included, converts to 0. */
  lemma BlankIsZero(s: string)
    requires AllWhitespace(s)
    ensures StringToNumber(s) == Finite(0.0)
  {
    TrimBlank(s);
  }

  /** Text without a single digit converts to NaN, unless it is a signed
      or unsigned `Infinity` or blank. */
  lemma DigitFreeIsNaN(s: string)
    requires !AllWhitespace(s) && !HasDigit(s)
    requires Trim(s) != "Infinity" && Trim(s) != "+Infinity" && Trim(s) != "-Infinity"
    ensures StringToNumber(s) == NaN
  {
    TrimDigitFree(s);
    LiteralWithoutDigits(Trim(s));
  }

  /** Trimming text that is not blank and has no digit leaves text that is
      not empty and has no digit. */
  lemma TrimDigitFree(s: string)
    requires !AllWhitespace(s) && !HasDigit(s)
    ensures |Trim(s)| > 0 && !HasDigit(Trim(s))
  {
    TrimBlank(s);
    var a := TrimWindowOf(s);
    DigitFreeWindow(s, a, Trim(s));
  }


  lemma DigitFreeWindow(s: string, a: nat, t: string)
    requires a + |t| <= |s| && s[a..a + |t|] == t && !HasDigit(s)
    ensures !HasDigit(t)
  {
    forall i | 0 <= i < |t| ensures !IsDigit(t[i]) {
      assert t[i] == s[a + i];
    }
  }

  lemma LiteralWithoutDigits(t: string)
    requires |t| > 0 && !HasDigit(t)
    requires t != "Infinity" && t != "+Infinity" && t != "-Infinity"
    ensures NumericLiteral(t) == NaN
  {
    assert !IsDigit(t[0]);
    if t[0] == '+' || t[0] == '-' {
      assert t == [t[0]] + t[1..];
      assert !HasDigit(t[1..]) by {
        forall i | 0 <= i < |t| - 1 ensures !IsDigit(t[1..][i]) {
          assert t[1..][i] == t[i + 1];
        }
      }
    }
  }

  /** A decimal literal (no sign, no `Infinity`) reads as its decimal value,
      rounded. */
  lemma DecimalLiteral(t: string, x: real)
    requires |t| > 0 && (IsDigit(t[0]) || t[0] == '.')
    requires |t| >= 2 ==> IsDigit(t[1]) || t[1] == '.' || t[1] == 'e'
    requires IsDigit(t[|t| - 1]) || t[|t| - 1] == '.'
    requires DecimalValue(t) == Some(x)
    ensures StringToNumber(t) == Rounded(x, false)
  {
    assert !IsWhitespace(t[0]) && !IsWhitespace(t[|t| - 1]);
    assert |t| >= 2 ==> Radix(t[1]) == 0;
    TrimmedLiteral(t);
    LiteralWithoutRadix(t);
    UnsignedDecimal(t, x);
  }

  /** `w.f`, with digits on at least one side of the point, is worth `w`
      plus `f` read as a decimal fraction. */
  lemma FractionNumeral(w: string, f: string)
    requires AllDigits(w) && AllDigits(f) && |w| + |f| > 0
    requires DigitsValue(w) + 1 < OverflowBound
    ensures StringToNumber(w + "." + f)
         == Finite(DigitsValue(w) as real + DigitsValue(f) as real / Pow10(|f|) as real)
  {
    var y := DigitsValue(w) as real + DigitsValue(f) as real / Pow10(|f|) as real;
    FractionValue(w, f);
    FractionLiteral(w, f);
    assert Scaled(DigitsValue(w + f), 0 - |f|) == y;
  }

  lemma FractionLiteral(w: string, f: string)
    requires AllDigits(w) && AllDigits(f) && |w| + |f| > 0
    requires DigitsValue(w) + 1 < OverflowBound
    ensures AllDigits(w + f)
    ensures StringToNumber(w + "." + f) == Finite(Scaled(DigitsValue(w + f), 0 - |f|))
  {
    var t := w + "." + f;
    FractionDecimal(w, f);
    FractionValue(w, f);
    var x := Scaled(DigitsValue(w + f), 0 - |f|);
    assert t[0] == '.' || IsDigit(t[0]);
    assert |t| >= 2 ==> t[1] == '.' || IsDigit(t[1]);
    assert t[|t| - 1] == '.' || IsDigit(t[|t| - 1]);
    DecimalLiteral(t, x);
    RoundedBelow(x);
  }

  lemma RoundedBelow(x: real)
    requires 0.0 <= x < OverflowBound as real
    ensures Rounded(x, false) == Finite(x)
  {
  }

  lemma FractionDecimal(w: string, f: string)
    requires AllDigits(w) && AllDigits(f) && |w| + |f| > 0
    ensures AllDigits(w + f)
    ensures DecimalValue(w + "." + f) == Some(Scaled(DigitsValue(w + f), 0 - |f|))
  {
    SplitFraction(w, f);
    FractionParts(w, f);
  }

  lemma FractionParts(w: string, f: string)
    requires AllDigits(w) && AllDigits(f) && |w| + |f| > 0
    ensures AllDigits(w + f)
    ensures PartsValue(DecimalParts(w, f, "")) == Some(Scaled(DigitsValue(w + f), 0 - |f|))
  {
    DigitsAppend(w, f);
    assert ExponentValue("") == Some(0);
  }

  lemma FractionValue(w: string, f: string)
    requires AllDigits(w) && AllDigits(f)
    requires DigitsValue(w) + 1 < OverflowBound
    ensures AllDigits(w + f)
    ensures var x := Scaled(DigitsValue(w + f), 0 - |f|);
            x == DigitsValue(w) as real + DigitsValue(f) as real / Pow10(|f|) as real
            && x < OverflowBound as real
  {
    DigitsAppend(w, f);
    ScaledDown(DigitsValue(w + f), |f|);
    DivideShifted(DigitsValue(w), Pow10(|f|), DigitsValue(f));
  }

  /** `(a p + v) / p` for a remainder `v` below `p`. */
  lemma DivideShifted(a: nat, p: nat, v: nat)
    requires 0 <= v < p
    ensures ((a * p + v) as real) / p as real == a as real + v as real / p as real
    ensures v as real / p as real < 1.0
  {
    var pr := p as real;
    assert (a * p) as real == a as real * pr;
    assert (a as real * pr + v as real) / pr == a as real + v as real / pr;
  }

  /** `w e k`: the digits `w` times ten to the power `k`, or `Infinity` once
      that passes the largest double. */
  lemma ExponentNumeral(w: string, k: string)
    requires |w| > 0 && AllDigits(w) && |k| > 0 && AllDigits(k)
    ensures var x := DigitsValue(w) * Pow10(DigitsValue(k));
            StringToNumber(w + "e" + k) == if x < OverflowBound then Finite(x as real) else Infinity(false)
  {
    var t := w + "e" + k;
    assert t == w + ("e" + k);
    PositiveExponent(k);
    ExponentDecimal(w, "e" + k, DigitsValue(k));
    ScaledUp(DigitsValue(w), DigitsValue(k));
    assert IsDigit(t[0]) && (|t| >= 2 ==> t[1] == 'e' || IsDigit(t[1]));
    assert t[|t| - 1] == k[|k| - 1] && IsDigit(k[|k| - 1]);
    DecimalLiteral(t, Scaled(DigitsValue(w), DigitsValue(k)));
  }

  /** `w e- k`: the digits `w` divided by ten to the power `k`. */
  lemma NegativeExponentNumeral(w: string, k: string)
    requires |w| > 0 && AllDigits(w) && |k| > 0 && AllDigits(k)
    requires DigitsValue(w) < OverflowBound
    ensures StringToNumber(w + "e-" + k) == Finite(DigitsValue(w) as real / Pow10(DigitsValue(k)) as real)
  {
    var t := w + "e-" + k;
    assert t == w + ("e-" + k);
    NegativeExponent(k);
    ExponentDecimal(w, "e-" + k, -(DigitsValue(k) as int));
    ScaledDown(DigitsValue(w), DigitsValue(k));
    DivideAtMost(DigitsValue(w), Pow10(DigitsValue(k)));
    assert IsDigit(t[0]) && (|t| >= 2 ==> t[1] == 'e' || IsDigit(t[1]));
    assert t[|t| - 1] == k[|k| - 1] && IsDigit(k[|k| - 1]);
    DecimalLiteral(t, Scaled(DigitsValue(w), -(DigitsValue(k) as int)));
  }

  lemma ExponentDecimal(w: string, x: string, e: int)
    requires |w| > 0 && AllDigits(w) && |x| > 0 && x[0] == 'e'
    requires ExponentValue(x) == Some(e)
    ensures DecimalValue(w + x) == Some(Scaled(DigitsValue(w), e))
  {
    SplitWhole(w, x);
    AppendNothing(w);
    WholeParts(w, x, e);
  }

  lemma WholeParts(w: string, x: string, e: int)
    requires |w| > 0 && AllDigits(w) && AllDigits(w + "") && ExponentValue(x) == Some(e)
    ensures PartsValue(DecimalParts(w, "", x)) == Some(Scaled(DigitsValue(w + ""), e))
  {
  }

  lemma AppendNothing(w: string)
    ensures w + "" == w
  {
  }

  lemma PositiveExponent(k: string)
    requires |k| > 0 && AllDigits(k)
    ensures ExponentValue("e" + k) == Some(DigitsValue(k))
  {
    assert ("e" + k)[1..] == k;
    assert IsDigit(k[0]);
  }

  lemma NegativeExponent(k: string)
    requires |k| > 0 && AllDigits(k)
    ensures ExponentValue("e-" + k) == Some(-(DigitsValue(k) as int))
  {
    assert ("e-" + k)[1..] == "-" + k && ("-" + k)[1..] == k;
  }

  lemma DivideAtMost(m: nat, p: nat)
    requires p >= 1
    ensures m as real / p as real <= m as real
  {
    assert m as real <= m as real * p as real;
  }

  /** `0x`, `0o` and `0b` literals read their digits in base 16, 8 and 2. */
  lemma RadixNumeral(c: char, ds: string)
    requires Radix(c) > 0 && |ds| > 0 && AllRadixDigits(ds, Radix(c))
    ensures var x := RadixValue(ds, Radix(c));
            StringToNumber("0" + [c] + ds) == if x < OverflowBound then Finite(x as real) else Infinity(false)
  {
    var t := "0" + [c] + ds;
    RadixLiteral(c, ds);
    TrimmedLiteral(t);
  }

  lemma RadixLiteral(c: char, ds: string)
    requires Radix(c) > 0 && |ds| > 0 && AllRadixDigits(ds, Radix(c))
    ensures var t := "0" + [c] + ds;
            && !IsWhitespace(t[0]) && !IsWhitespace(t[|t| - 1])
            && NumericLiteral(t) == NonDecimal(ds, Radix(c))
  {
    var t := "0" + [c] + ds;
    assert t[0] == '0' && t[1] == c && t[2..] == ds;
    assert t[|t| - 1] == ds[|ds| - 1];
    RadixDigitNotWhitespace(ds[|ds| - 1]);
  }

  lemma RadixDigitNotWhitespace(c: char)
    requires RadixDigit(c) < 16
    ensures !IsWhitespace(c)
  {
  }

  /** `Infinity` with an optional sign is read as the infinity of that
      sign. */
  lemma InfinitySpellings()
    ensures StringToNumber("Infinity") == Infinity(false)
    ensures StringToNumber("+Infinity") == Infinity(false)
    ensures StringToNumber("-Infinity") == Infinity(true)
  {
    TrimmedLiteral("Infinity");
    TrimmedLiteral("+Infinity");
    TrimmedLiteral("-Infinity");
    assert "+Infinity"[1..] == "Infinity" && "-Infinity"[1..] == "Infinity";
  }

  /** A non-zero fraction puts the value strictly between two consecutive
      integers. */
  lemma FractionBetween(w: string, f: string)
    requires AllDigits(w) && AllDigits(f) && DigitsValue(f) > 0
    requires DigitsValue(w) + 1 < OverflowBound
    ensures var n := StringToNumber(w + "." + f);
            n.Finite? && DigitsValue(w) as real < n.v < DigitsValue(w) as real + 1.0
  {
    assert |f| > 0;
    var r := DigitsValue(f) as real / Pow10(|f|) as real;
    FractionNumeral(w, f);
    ProperFraction(DigitsValue(f), Pow10(|f|));
    assert StringToNumber(w + "." + f) == Finite(DigitsValue(w) as real + r);
  }

  lemma ProperFraction(v: nat, p: nat)
    requires 0 < v < p
    ensures 0.0 < v as real / p as real < 1.0
  {
  }
}

=== FILE: jstext.dfy ===
/** String primitives of JavaScript that the script relies on: the
    whitespace class shared by `String.prototype.trim`, `Number(string)` and
    the regular-expression class `\s`; `trim`; ASCII lower-casing; and
    decimal digit strings. */
module JsText {

  /** WhiteSpace or LineTerminator in the sense of ECMAScript: TAB, VT, FF,
      SP, NBSP, ZWNBSP, the space separators (category Zs) and LF, CR, LS, PS. */
  predicate IsWhitespace(c: char) {
    ('\t' <= c <= '\r') || c == ' ' || ('\U{00A0}' <= c && IsWideWhitespace(c))
  }

  /** The whitespace characters outside ASCII. */
  predicate IsWideWhitespace(c: char) {
    || c == '\U{00A0}' || c == '\U{1680}'
    || ('\U{2000}' <= c <= '\U{200A}')
    || c == '\U{2028}' || c == '\U{2029}' || c == '\U{202F}' || c == '\U{205F}'
    || c == '\U{3000}' || c == '\U{FEFF}'
  }

  predicate AllWhitespace(s: string) {
    forall i :: 0 <= i < |s| ==> IsWhitespace(s[i])
  }

  predicate StartsWith(s: string, prefix: string) {
    |prefix| <= |s| && s[..|prefix|] == prefix
  }

  /** `s` with its leading whitespace removed. */
  function TrimStart(s: string): (r: string)
    ensures |r| <= |s| && r == s[|s| - |r|..]
    ensures AllWhitespace(s[..|s| - |r|])
    ensures |r| == 0 || !IsWhitespace(r[0])
  {
    if |s| > 0 && IsWhitespace(s[0]) then
      var r := TrimStart(s[1..]);
      TrimStartStep(s, r);
      r
    else s
  }

  /** `s` with its trailing whitespace removed. */
  function TrimEnd(s: string): (r: string)
    ensures |r| <= |s| && r == s[..|r|]
    ensures AllWhitespace(s[|r|..])
    ensures |r| == 0 || !IsWhitespace(r[|r| - 1])
  {
    if |s| > 0 && IsWhitespace(s[|s| - 1]) then
      var r := TrimEnd(s[..|s| - 1]);
      TrimEndStep(s, r);
      r
    else s
  }

  lemma TrimStartStep(s: string, r: string)
    requires |s| > 0 && IsWhitespace(s[0])
    requires |r| <= |s| - 1 && r == s[1..][|s| - 1 - |r|..] && AllWhitespace(s[1..][..|s| - 1 - |r|])
    ensures r == s[|s| - |r|..] && AllWhitespace(s[..|s| - |r|])
  {
    assert s[1..][..|s| - 1 - |r|] == s[1..|s| - |r|];
  }

  lemma TrimEndStep(s: string, r: string)
    requires |s| > 0 && IsWhitespace(s[|s| - 1])
    requires |r| <= |s| - 1 && r == s[..|s| - 1][..|r|] && AllWhitespace(s[..|s| - 1][|r|..])
    ensures r == s[..|r|] && AllWhitespace(s[|r|..])
  {
    assert s[..|s| - 1][|r|..] == s[|r|..|s| - 1];
  }

  /** `String.prototype.trim`: the result is the part of `s` between a
      whitespace-only prefix and a whitespace-only suffix, and it neither
      starts nor ends with whitespace. */
  function Trim(s: string): (r: string)
    ensures |r| <= |s|
    ensures exists a :: 0 <= a <= |s| - |r| && s[a..a + |r|] == r
                         && AllWhitespace(s[..a]) && AllWhitespace(s[a + |r|..])
    ensures |r| > 0 ==> !IsWhitespace(r[0]) && !IsWhitespace(r[|r| - 1])
  {
    var e := TrimEnd(s);
    var r := TrimStart(e);
    TrimWindow(s, e, r);
    r
  }

  /** Cutting trailing whitespace, then leading whitespace, leaves a window
      of `s` with whitespace on both sides. */
  lemma TrimWindow(s: string, e: string, r: string)
    requires |e| <= |s| && e == s[..|e|] && AllWhitespace(s[|e|..])
    requires |e| == 0 || !IsWhitespace(e[|e| - 1])
    requires |r| <= |e| && r == e[|e| - |r|..] && AllWhitespace(e[..|e| - |r|])
    ensures exists a :: 0 <= a <= |s| - |r| && s[a..a + |r|] == r
                        && AllWhitespace(s[..a]) && AllWhitespace(s[a + |r|..])
    ensures |r| > 0 ==> !IsWhitespace(r[|r| - 1])
  {
    var a := |e| - |r|;
    assert s[a..a + |r|] == r;
    assert s[..a] == e[..a];
    assert AllWhitespace(s[a + |r|..]);
    if |r| > 0 {
      assert r[|r| - 1] == e[|e| - 1];
    }
  }

  /** Where `Trim(s)` sits inside `s`. */
  lemma TrimWindowOf(s: string) returns (a: nat)
    ensures a + |Trim(s)| <= |s| && s[a..a + |Trim(s)|] == Trim(s)
    ensures AllWhitespace(s[..a]) && AllWhitespace(s[a + |Trim(s)|..])
  {
    a :| 0 <= a <= |s| - |Trim(s)| && s[a..a + |Trim(s)|] == Trim(s)
         && AllWhitespace(s[..a]) && AllWhitespace(s[a + |Trim(s)|..]);
  }

  /** Trimming empties exactly the blank strings. */
  lemma TrimBlank(s: string)
    ensures |Trim(s)| == 0 <==> AllWhitespace(s)
  {
    var a := TrimWindowOf(s);
    BlankWindow(s, a, Trim(s));
  }

  /** A window with whitespace on both sides: if the window is empty the
      whole is blank, and if the whole is blank so is the window. */
  lemma BlankWindow(s: string, a: nat, t: string)
    requires a + |t| <= |s| && s[a..a + |t|] == t
    requires AllWhitespace(s[..a]) && AllWhitespace(s[a + |t|..])
    ensures |t| == 0 ==> AllWhitespace(s)
    ensures AllWhitespace(s) ==> AllWhitespace(t)
  {
    forall i | 0 <= i < |s| ensures |t| == 0 ==> IsWhitespace(s[i]) {
      if i < a {
        assert s[i] == s[..a][i];
      } else if |t| == 0 {
        assert s[i] == s[a + |t|..][i - a];
      }
    }
    forall i | 0 <= i < |t| ensures AllWhitespace(s) ==> IsWhitespace(t[i]) {
      assert t[i] == s[a + i];
    }
  }

  /** Trimming leaves a string that neither starts nor ends with whitespace unchanged. */
  lemma {:induction false} TrimNoPadding(s: string)
    requires |s| > 0 ==> !IsWhitespace(s[0]) && !IsWhitespace(s[|s| - 1])
    ensures Trim(s) == s
  {
  }

  predicate IsUpperAscii(c: char) {
    'A' <= c <= 'Z'
  }

  function LowerChar(c: char): char {
    if IsUpperAscii(c) then (c as int + 32) as char else c
  }

  /** ASCII lower-casing, standing in for `String.prototype.toLowerCase`:
      each capital becomes the letter 32 code points above it. */
  function Lower(s: string): (r: string)
    ensures |r| == |s|
    ensures forall i :: 0 <= i < |s| ==> !IsUpperAscii(r[i])
    ensures forall i :: 0 <= i < |s| && IsUpperAscii(s[i]) ==> r[i] as int == s[i] as int + 32
    ensures forall i :: 0 <= i < |s| && !IsUpperAscii(s[i]) ==> r[i] == s[i]
  {
    seq(|s|, i requires 0 <= i < |s| => LowerChar(s[i]))
  }

  /** Two characters that differ at most in ASCII case. */
  predicate SameLetterIgnoringCase(c: char, d: char) {
    || c == d
    || ('A' <= c <= 'Z' && d as int == c as int + 32)
    || ('A' <= d <= 'Z' && c as int == d as int + 32)
  }

  /** Two strings that differ at most in the ASCII case of their letters. */
  predicate EqualIgnoringAsciiCase(s: string, t: string) {
    |s| == |t| && forall i :: 0 <= i < |s| ==> SameLetterIgnoringCase(s[i], t[i])
  }

  /** Lower-casing identifies exactly the strings that differ only in ASCII
      case. */
  lemma LowerEqualIff(s: string, t: string)
    ensures Lower(s) == Lower(t) <==> EqualIgnoringAsciiCase(s, t)
  {
    if Lower(s) == Lower(t) {
      forall i | 0 <= i < |s| ensures SameLetterIgnoringCase(s[i], t[i]) {
        assert Lower(s)[i] == Lower(t)[i];
      }
    }
    if EqualIgnoringAsciiCase(s, t) {
      forall i | 0 <= i < |s| ensures Lower(s)[i] == Lower(t)[i] {
        assert SameLetterIgnoringCase(s[i], t[i]);
      }
    }
  }

  /** The decimal digits `\d` of a JavaScript regular expression. */
  predicate IsDigit(c: char) {
    '0' <= c <= '9'
  }

  predicate AllDigits(s: string) {
    forall i :: 0 <= i < |s| ==> IsDigit(s[i])
  }

  function DigitValue(c: char): (d: nat)
    requires IsDigit(c)
    ensures d < 10
  {
    c as int - '0' as int
  }

  function DigitChar(d: nat): (c: char)
    requires d < 10
    ensures IsDigit(c) && DigitValue(c) == d
  {
    ('0' as int + d) as char
  }

  function Pow10(n: nat): (p: nat)
    ensures p >= 1
  {
    if n == 0 then 1 else 10 * Pow10(n - 1)
  }

  /** The value of a decimal numeral, most significant digit first. */
  function DigitsValue(s: string): (v: nat)
    requires AllDigits(s)
    ensures v < Pow10(|s|)
  {
    if |s| == 0 then 0 else DigitsValue(s[..|s| - 1]) * 10 + DigitValue(s[|s| - 1])
  }

  /** `n` written in exactly `width` decimal digits, with leading zeros
      (the zero padding of `toISOString`). */
  function Padded(n: nat, width: nat): (s: string)
    requires n < Pow10(width)
    ensures |s| == width
  {
    if width == 0 then "" else Padded(n / 10, width - 1) + [DigitChar(n % 10)]
  }

  /** The zero-padded rendering consists of digits and reads back as the
      number it renders. */
  lemma {:induction false} PaddedReadsBack(n: nat, width: nat)
    requires n < Pow10(width)
    ensures AllDigits(Padded(n, width)) && DigitsValue(Padded(n, width)) == n
  {
    if width > 0 {
      var init := Padded(n / 10, width - 1);
      PaddedReadsBack(n / 10, width - 1);
      assert Padded(n, width)[..width - 1] == init;
    }
  }

  /** Padding the value of a digit string back to its own width gives the
      string itself: zero-padded decimal rendering is injective. */
  lemma {:induction false} PaddedDigitsValue(s: string)
    requires AllDigits(s)
    ensures Padded(DigitsValue(s), |s|) == s
  {
    if |s| > 0 {
      var init := s[..|s| - 1];
      PaddedDigitsValue(init);
      assert DigitsValue(s) / 10 == DigitsValue(init);
      assert DigitsValue(s) % 10 == DigitValue(s[|s| - 1]);
      assert s == init + [s[|s| - 1]];
    }
  }

  lemma {:induction false} TrimEndAt(s: string, b: nat)
    requires 0 < b <= |s| && AllWhitespace(s[b..]) && !IsWhitespace(s[b - 1])
    ensures TrimEnd(s) == s[..b]
    decreases |s|
  {
    if |s| > b {
      assert s[b..][|s| - 1 - b] == s[|s| - 1];
      assert s[..|s| - 1][b..] == s[b..|s| - 1];
      TrimEndAt(s[..|s| - 1], b);
      assert s[..|s| - 1][..b] == s[..b];
    }
  }

  lemma {:induction false} TrimStartAt(s: string, a: nat)
    requires a < |s| && AllWhitespace(s[..a]) && !IsWhitespace(s[a])
    ensures TrimStart(s) == s[a..]
    decreases a
  {
    if a > 0 {
      assert s[..a][0] == s[0];
      assert s[1..][..a - 1] == s[1..a];
      TrimStartAt(s[1..], a - 1);
      assert s[1..][a - 1..] == s[a..];
    }
  }

  /** Trimming a whitespace prefix and suffix off a core that neither starts
      nor ends with whitespace yields exactly that core. */
  lemma TrimUnique(s: string, a: nat, b: nat)
    requires a < b <= |s|
    requires AllWhitespace(s[..a]) && AllWhitespace(s[b..])
    requires !IsWhitespace(s[a]) && !IsWhitespace(s[b - 1])
    ensures Trim(s) == s[a..b]
  {
    TrimEndAt(s, b);
    assert s[..b][..a] == s[..a];
    TrimStartAt(s[..b], a);
    assert s[..b][a..] == s[a..b];
  }

  /** A core with non-whitespace ends, padded with whitespace, trims to the core. */
  lemma TrimPadded(pre: string, core: string, post: string)
    requires AllWhitespace(pre) && AllWhitespace(post)
    requires |core| > 0 && !IsWhitespace(core[0]) && !IsWhitespace(core[|core| - 1])
    ensures Trim(pre + core + post) == core
  {
    var s := pre + core + post;
    assert s[..|pre|] == pre && s[|pre| + |core|..] == post;
    assert s[|pre|..|pre| + |core|] == core;
    TrimUnique(s, |pre|, |pre| + |core|);
  }
}

=== FILE: numeric_grammar.dfy ===
/** The grammar of StrNumericLiteral (ECMAScript, section 7.1.4.1), written
    as predicates on the trimmed text and independently of how `JsNumber`
    computes a value. `Number(s)` is NaN exactly when `s` is not blank and
    its trimmed text is not such a literal. */
module NumericGrammar {
  import opened JsText
  import opened JsNumber

  /** DecimalDigits: one or more decimal digits. */
  predicate IsDecimalDigits(s: string) {
    |s| > 0 && AllDigits(s)
  }

  /** ExponentPart: `e` or `E`, an optional sign, decimal digits. */
  predicate IsExponentPart(x: string) {
    && |x| >= 2
    && (x[0] == 'e' || x[0] == 'E')
    && (IsDecimalDigits(x[1..]) || ((x[1] == '+' || x[1] == '-') && IsDecimalDigits(x[2..])))
  }

  /** The part before the exponent: `digits`, `digits.`, `digits.digits`
      or `.digits`. */
  predicate IsMantissa(m: string) {
    || IsDecimalDigits(m)
    || exists d :: 0 <= d < |m| && m[d] == '.' && AllDigits(m[..d]) && AllDigits(m[d + 1..]) && |m| >= 2
  }

  /** StrUnsignedDecimalLiteral: `Infinity`, or a mantissa with an optional
      exponent. */
  predicate IsUnsignedDecimalLiteral(u: string) {
    || u == "Infinity"
    || exists e :: 0 <= e <= |u| && IsMantissa(u[..e]) && (e == |u| || IsExponentPart(u[e..]))
  }

  /** StrDecimalLiteral: an optionally signed StrUnsignedDecimalLiteral. */
  predicate IsStrDecimalLiteral(t: string) {
    || IsUnsignedDecimalLiteral(t)
    || (|t| > 0 && (t[0] == '+' || t[0] == '-') && IsUnsignedDecimalLiteral(t[1..]))
  }

  predicate IsHexDigit(c: char) {
    '0' <= c <= '9' || 'a' <= c <= 'f' || 'A' <= c <= 'F'
  }

  /** NonDecimalIntegerLiteral: `0x`, `0o` or `0b` and at least one digit
      of that base. */
  predicate IsNonDecimalIntegerLiteral(t: string) {
    && |t| > 2
    && t[0] == '0'
    && (|| ((t[1] == 'x' || t[1] == 'X') && forall i :: 2 <= i < |t| ==> IsHexDigit(t[i]))
        || ((t[1] == 'o' || t[1] == 'O') && forall i :: 2 <= i < |t| ==> '0' <= t[i] <= '7')
        || ((t[1] == 'b' || t[1] == 'B') && forall i :: 2 <= i < |t| ==> t[i] == '0' || t[i] == '1'))
  }

  /** StrNumericLiteral, for text that has already been trimmed. */
  predicate IsStrNumericLiteral(t: string) {
    IsStrDecimalLiteral(t) || IsNonDecimalIntegerLiteral(t)
  }

  /** `Number(s)` is NaN exactly when `s` is neither blank nor, once
      trimmed, a numeric literal. */
  lemma NaNIffNotLiteral(s: string)
    ensures StringToNumber(s).NaN? <==> !AllWhitespace(s) && !IsStrNumericLiteral(Trim(s))
  {
    TrimBlank(s);
    var t := Trim(s);
    if |t| > 0 {
      if NumericLiteral(t) != NaN {
        LiteralShape(t);
      }
      if IsStrNumericLiteral(t) {
        LiteralNotNaN(t);
      }
    }
  }

  // Value to grammar: whatever converts to a number is a literal.

  lemma LiteralShape(t: string)
    requires |t| > 0 && NumericLiteral(t) != NaN
    ensures IsStrNumericLiteral(t)
  {
    if |t| >= 2 && t[0] == '0' && Radix(t[1]) > 0 {
      RadixShape(t);
    } else if t[0] == '+' || t[0] == '-' {
      UnsignedShape(t[1..], t[0] == '-');
    } else {
      UnsignedShape(t, false);
    }
  }

  lemma UnsignedShape(u: string, negative: bool)
    requires Unsigned(u, negative) != NaN
    ensures IsUnsignedDecimalLiteral(u)
  {
    if u != "Infinity" {
      DecimalShape(u);
    }
  }

  lemma DecimalShape(u: string)
    requires DecimalValue(u).Some?
    ensures IsUnsignedDecimalLiteral(u)
  {
    var p := SplitDecimal(u);
    SplitShape(u);
    assert |p.whole| + |p.fraction| > 0 && ExponentValue(p.exponent).Some?;
    if |p.exponent| > 0 {
      ExponentShape(p.exponent);
    }
    var m := if u == p.whole + p.exponent && p.fraction == "" then p.whole else p.whole + "." + p.fraction;
    assert u == m + p.exponent;
    if m != p.whole {
      var d := |p.whole|;
      assert m[d] == '.' && m[..d] == p.whole && m[d + 1..] == p.fraction;
    }
    var e := |m|;
    assert u[..e] == m && u[e..] == p.exponent;
    assert IsMantissa(u[..e]);
  }

  /** How `SplitDecimal` cuts its input. */
  lemma SplitShape(u: string)
    ensures var p := SplitDecimal(u);
            || (p.fraction == "" && u == p.whole + p.exponent)
            || u == p.whole + "." + p.fraction + p.exponent
  {
    var ip := DigitRun(u, 0);
    if ip < |u| && u[ip] == '.' {
      var fe := DigitRun(u, ip + 1);
      assert u == u[..ip] + "." + u[ip + 1..fe] + u[fe..];
    } else {
      assert u == u[..ip] + u[ip..];
    }
  }

  lemma ExponentShape(x: string)
    requires |x| > 0 && ExponentValue(x).Some?
    ensures IsExponentPart(x)
  {
    var y := x[1..];
    if |y| > 0 && (y[0] == '+' || y[0] == '-') {
      assert y[1..] == x[2..];
    }
  }

  lemma RadixShape(t: string)
    requires |t| >= 2 && t[0] == '0' && Radix(t[1]) > 0
    requires NonDecimal(t[2..], Radix(t[1])) != NaN
    ensures IsNonDecimalIntegerLiteral(t)
  {
    var r, ds := Radix(t[1]), t[2..];
    forall i | 2 <= i < |t| ensures RadixDigit(t[i]) < r {
      assert t[i] == ds[i - 2];
    }
  }

  // Grammar to value: every literal converts to a number.

  lemma LiteralNotNaN(t: string)
    requires IsStrNumericLiteral(t)
    ensures NumericLiteral(t) != NaN
  {
    if IsNonDecimalIntegerLiteral(t) {
      RadixNotNaN(t);
    } else if IsUnsignedDecimalLiteral(t) {
      UnsignedStart(t);
      UnsignedNotNaN(t, false);
    } else {
      UnsignedNotNaN(t[1..], t[0] == '-');
    }
  }

  /** An unsigned decimal literal starts with a digit, `.` or `I`, and its
      second character is never a radix letter. */
  lemma UnsignedStart(u: string)
    requires IsUnsignedDecimalLiteral(u)
    ensures |u| > 0 && u[0] != '+' && u[0] != '-'
    ensures |u| >= 2 && u[0] == '0' ==> Radix(u[1]) == 0
  {
    if u != "Infinity" {
      var e :| 0 <= e <= |u| && IsMantissa(u[..e]) && (e == |u| || IsExponentPart(u[e..]));
      var m := u[..e];
      assert |m| > 0;
      assert m[0] == u[0];
      assert IsDigit(m[0]) || m[0] == '.' by {
        if !IsDecimalDigits(m) {
          var d :| 0 <= d < |m| && m[d] == '.' && AllDigits(m[..d]) && AllDigits(m[d + 1..]) && |m| >= 2;
          if d > 0 { assert m[..d][0] == m[0]; }
        }
      }
      if |u| >= 2 && u[0] == '0' {
        if e >= 2 {
          assert m[1] == u[1];
          MantissaSecond(m);
        } else {
          assert u[1] == u[e..][0];
        }
      }
    }
  }

  lemma MantissaSecond(m: string)
    requires IsMantissa(m) && |m| >= 2
    ensures IsDigit(m[1]) || m[1] == '.'
  {
    if !IsDecimalDigits(m) {
      var d :| 0 <= d < |m| && m[d] == '.' && AllDigits(m[..d]) && AllDigits(m[d + 1..]) && |m| >= 2;
      if d > 1 {
        assert m[..d][1] == m[1];
      } else if d == 0 {
        assert m[d + 1..][0] == m[1];
      }
    }
  }

  lemma RadixNotNaN(t: string)
    requires IsNonDecimalIntegerLiteral(t)
    ensures NumericLiteral(t) != NaN
  {
    var r, ds := Radix(t[1]), t[2..];
    forall i | 0 <= i < |ds| ensures RadixDigit(ds[i]) < r {
      assert ds[i] == t[i + 2];
    }
  }

  lemma UnsignedNotNaN(u: string, negative: bool)
    requires IsUnsignedDecimalLiteral(u)
    ensures Unsigned(u, negative) != NaN
  {
    if u != "Infinity" {
      var e :| 0 <= e <= |u| && IsMantissa(u[..e]) && (e == |u| || IsExponentPart(u[e..]));
      DecimalOfGrammar(u, e);
    }
  }

  /** A mantissa followed by an optional exponent has a decimal value. */
  lemma DecimalOfGrammar(u: string, e: nat)
    requires e <= |u| && IsMantissa(u[..e]) && (e == |u| || IsExponentPart(u[e..]))
    ensures DecimalValue(u).Some?
  {
    var m, x := u[..e], u[e..];
    if e < |u| {
      ExponentOfGrammar(x);
    }
    assert ExponentValue(x).Some?;
    assert e == |u| || u[e] == 'e' || u[e] == 'E' by {
      if e < |u| { assert u[e] == x[0]; }
    }
    if IsDecimalDigits(m) {
      assert AllDigits(u[0..e]) by { assert u[0..e] == m; }
      DigitRunTo(u, 0, e);
      assert SplitDecimal(u) == DecimalParts(m, "", x);
    } else {
      var d :| 0 <= d < |m| && m[d] == '.' && AllDigits(m[..d]) && AllDigits(m[d + 1..]) && |m| >= 2;
      assert u[0..d] == m[..d] && u[d] == '.' && u[d + 1..e] == m[d + 1..];
      DigitRunTo(u, 0, d);
      DigitRunTo(u, d + 1, e);
      assert SplitDecimal(u) == DecimalParts(m[..d], m[d + 1..], x);
    }
  }

  lemma ExponentOfGrammar(x: string)
    requires IsExponentPart(x)
    ensures ExponentValue(x).Some?
  {
    var y := x[1..];
    if |y| > 0 && (y[0] == '+' || y[0] == '-') {
      assert y[1..] == x[2..];
    }
  }

  /** Decimal digits followed by a character that cannot continue a
      literal, such as the `a` of `12abc` or the space of `1 2`, are no
      literal at all. */
  lemma NumeralWithJunk(ds: string, c: char, rest: string)
    requires IsDecimalDigits(ds)
    requires !IsDigit(c) && c != '.' && c != 'e' && c != 'E'
    requires ds == "0" ==> c != 'x' && c != 'X' && c != 'o' && c != 'O' && c != 'b' && c != 'B'
    ensures !IsStrNumericLiteral(ds + [c] + rest)
  {
    var u := ds + [c] + rest;
    var k := |ds|;
    assert u[0] == ds[0] && u[k] == c;
    assert IsDigit(u[0]);
    forall i | 0 <= i < k ensures IsDigit(u[i]) {
      assert u[i] == ds[i];
    }
    if |ds| == 1 {
      assert u[1] == c;
    } else {
      assert u[1] == ds[1];
    }
    forall e | 0 <= e <= |u| && IsMantissa(u[..e]) ensures e < |u| && !IsExponentPart(u[e..]) {
      assert u[e..][0] == u[e];
    }
    assert u != "Infinity";
  }
}

=== FILE: pipeline.dfy ===
/** One run of the script from its inputs to its exit: parse the tokens,
    make the checks, send the request with retries, and turn the answer into
    the printed object. A failure ends the run with the exit code of its
    kind; a success prints and exits with 0. */
module Pipeline {
  import opened Wrappers
  import opened Failures
  import opened JsNumber
  import opened Cli
  import opened Http
  import opened Retry
  import opened Prepare
  import opened Response

  /** What a run produced: the printed object or the failure, the request
      sent (if the checks passed), the attempts made and the delays slept. */
  datatype Run = Run(
    result: Result<Output, Failure>,
    sent: Option<Request>,
    attemptsMade: nat,
    delays: seq<Number>)

  /** The usage error found before any request, if there is one. */
  function UsageError(argv: seq<string>, env: Env): Option<UsageReason> {
    match Parse(argv)
    case Err(reason) => Some(reason)
    case Ok(args) => if Build(args, env).Err? then Some(Build(args, env).error) else None
  }

  /** The whole script. Usage errors are decided before the network is used;
      otherwise the attempt that ended the retry loop decides the result. */
  function Invoke(argv: seq<string>, env: Env, outcomes: seq<Attempt>, draws: seq<real>): (run: Run)
    requires AllDraws(draws) && DefaultAttempts <= |draws|
    ensures run.sent.None? <==> UsageError(argv, env).Some?
    ensures run.sent.None? ==> run.result == Err(Usage(UsageError(argv, env).value)) && run.attemptsMade == 0
    ensures run.sent.Some? ==>
      && 1 <= run.attemptsMade <= DefaultAttempts
      && |run.delays| == run.attemptsMade - 1
      && (run.result.Err? ==> !run.result.error.Usage?)
    ensures run.sent.Some? ==> var last := OutcomeAt(outcomes, run.attemptsMade - 1);
      && (run.result.Ok? ==>
            && last.Answered? && IsOk(last.status) && last.body.Json?
            && run.result.value == Respond(run.sent.value.query, run.sent.value.model, last.body.response))
      && (run.result.Err? && run.result.error.Http? ==>
            last.Answered? && !IsOk(last.status) && last.status == run.result.error.status)
      && (run.result.Err? && run.result.error.Network? ==> Throws(last))
      && (run.result.Err? && run.result.error.ParseJson? ==>
            last.Answered? && IsOk(last.status) && !last.body.Json?)
  {
    match Parse(argv)
    case Err(reason) => Run(Err(Usage(reason)), None, 0, [])
    case Ok(args) =>
      match Build(args, env)
      case Err(reason) => Run(Err(Usage(reason)), None, 0, [])
      case Ok(req) => Send(req, outcomes, draws)
  }

  /** Sending a built request: the retry loop runs, and its verdict becomes
      the printed object or the failure of the attempt that ended it. */
  function Send(req: Request, outcomes: seq<Attempt>, draws: seq<real>): (run: Run)
    requires AllDraws(draws) && DefaultAttempts <= |draws|
    ensures run.sent == Some(req)
    ensures 1 <= run.attemptsMade <= DefaultAttempts && |run.delays| == run.attemptsMade - 1
    ensures run.result.Err? ==> !run.result.error.Usage?
    ensures var last := OutcomeAt(outcomes, run.attemptsMade - 1);
      && (run.result.Ok? ==>
            && last.Answered? && IsOk(last.status) && last.body.Json?
            && run.result.value == Respond(req.query, req.model, last.body.response))
      && (run.result.Err? && run.result.error.Http? ==>
            last.Answered? && !IsOk(last.status) && last.status == run.result.error.status)
      && (run.result.Err? && run.result.error.Network? ==> Throws(last))
      && (run.result.Err? && run.result.error.ParseJson? ==>
            last.Answered? && IsOk(last.status) && !last.body.Json?)
  {
    RetryStops(DefaultAttempts, outcomes, draws);
    var r := RunRetries(DefaultAttempts, outcomes, draws);
    var result := match r.verdict
      case Failed(f) => Err(f)
      case Delivered(_, Json(resp)) => Ok(Respond(req.query, req.model, resp))
      case Delivered(_, _) => Err(ParseJson);
    Run(result, Some(req), r.attemptsMade, r.delays)
  }

  /** `process.exit` codes, with 0 for a printed result. */
  function ExitStatus(run: Run): (code: int)
    ensures code == 0 <==> run.result.Ok?
    ensures code == 2 <==> run.result.Err? && run.result.error.Usage?
    ensures code in {0, 1, 2, 3, 4}
  {
    if run.result.Ok? then 0 else ExitCode(run.result.error)
  }

  /** `--q <query>` alone sets the query and nothing else. */
  lemma QueryOnlyArgs(q: string)
    ensures Parse(["--q", q]) == Ok(NoArgs.(q := Some(q)))
  {
    var argv := ["--q", q];
    assert Recognize(argv[0]) == Some(ScalarFlag(Query));
    assert At(argv, 1) == Some(q);
    var a := NoArgs.(q := Some(q));
    assert SetScalar(NoArgs, Query, Some(q)) == Ok(a);
    assert StepAt(argv, 0, NoArgs) == Next(2, a);
    assert ParseFrom(argv, 2, a) == Ok(a);
    assert ParseFrom(argv, 0, NoArgs) == ParseFrom(argv, 2, a);
  }

  /** Without an API key the script stops with exit code 2 and sends nothing. */
  lemma MissingKeySendsNothing(q: string, env: Env, outcomes: seq<Attempt>, draws: seq<real>)
    requires AllDraws(draws) && DefaultAttempts <= |draws|
    requires q != "" && (env.apiKey == None || env.apiKey == Some(""))
    ensures Invoke(["--q", q], env, outcomes, draws).result == Err(Usage(MissingApiKey))
    ensures Invoke(["--q", q], env, outcomes, draws).attemptsMade == 0
    ensures ExitStatus(Invoke(["--q", q], env, outcomes, draws)) == 2
  {
    QueryOnlyArgs(q);
  }

  /** A first answer that succeeds is printed after a single attempt, with
      the model named by the response or else the configured one. */
  lemma FirstAnswerPrinted(q: string, env: Env, outcomes: seq<Attempt>, draws: seq<real>,
                           status: int, retryAfter: Option<string>, resp: ApiResponse)
    requires AllDraws(draws) && DefaultAttempts <= |draws|
    requires q != "" && Given(env.apiKey)
    requires OutcomeAt(outcomes, 0) == Answered(status, retryAfter, Json(resp)) && IsOk(status)
    ensures var run := Invoke(["--q", q], env, outcomes, draws);
      && run.attemptsMade == 1
      && run.delays == []
      && run.result == Ok(Respond(q, env.modelOverride.GetOr(DefaultModel), resp))
      && ExitStatus(run) == 0
  {
    InvokeQueryOnly(q, env, outcomes, draws);
    var req := Build(NoArgs.(q := Some(q)), env).value;
    RetryFromFinal(DefaultAttempts, outcomes, Schedule(DefaultAttempts, outcomes, draws), 1, []);
    assert Send(req, outcomes, draws) == Run(Ok(Respond(req.query, req.model, resp)), Some(req), 1, []);
  }

  /** `--q <query>` with a key present passes the checks and sends. */
  lemma InvokeQueryOnly(q: string, env: Env, outcomes: seq<Attempt>, draws: seq<real>)
    requires AllDraws(draws) && DefaultAttempts <= |draws|
    requires q != "" && Given(env.apiKey)
    ensures Build(NoArgs.(q := Some(q)), env).Ok?
    ensures Invoke(["--q", q], env, outcomes, draws) == Send(Build(NoArgs.(q := Some(q)), env).value, outcomes, draws)
  {
    QueryOnlyArgs(q);
  }

  /** A server that answers 503 to every attempt makes the script exit with
      code 1 after three attempts and two growing backoffs. */
  lemma PersistentUnavailable(q: string, env: Env, outcomes: seq<Attempt>, draws: seq<real>)
    requires AllDraws(draws) && DefaultAttempts <= |draws|
    requires q != "" && Given(env.apiKey)
    requires forall k: nat :: k < DefaultAttempts ==>
      var o := OutcomeAt(outcomes, k);
      o.Answered? && o.status == 503 && o.retryAfter == None && !o.body.Unreadable?
    ensures var run := Invoke(["--q", q], env, outcomes, draws);
      && run.result == Err(Http(503))
      && run.attemptsMade == DefaultAttempts
      && |run.delays| == 2 && run.delays[0].Finite? && run.delays[1].Finite?
      && run.delays[0].v < run.delays[1].v
      && ExitStatus(run) == 1
  {
    InvokeQueryOnly(q, env, outcomes, draws);
    PersistentRetriableStatus(DefaultAttempts, outcomes, draws, 503);
  }
}

=== FILE: prepare.dfy ===
/** The checks and the request assembly that run between `parseArgs` and the
    POST: the query and the handle-list checks, the API key, handle
    normalisation, the clamp of `--max`, the X source filters, the date
    bounds and the model name. */
module Prepare {
  import opened Wrappers
  import opened Failures
  import opened Cli
  import opened Handles
  import opened IsoDate

  const DefaultModel: string := "x-ai/grok-4"
  const DefaultMaxResults: real := 12.0
  const MinMaxResults: real := 1.0
  const MaxMaxResults: real := 50.0

  /** The two environment variables the script reads. */
  datatype Env = Env(apiKey: Option<string>, modelOverride: Option<string>)

  /** The X source of the search parameters; a filter is absent when the
      script leaves its key out. */
  datatype XSource = XSource(
    includedHandles: Option<seq<string>>,
    excludedHandles: Option<seq<string>>,
    favoriteCount: Option<nat>,
    viewCount: Option<nat>)

  datatype SearchParameters = SearchParameters(
    mode: Mode,
    maxResults: real,
    fromDate: Option<string>,
    toDate: Option<string>,
    source: XSource)

  /** The parts of the request body that depend on the input. */
  datatype Request = Request(model: string, query: string, search: SearchParameters)

  /** A value present and not the empty string, as `!x` is false for it. */
  predicate Given(x: Option<string>) {
    x.Some? && x.value != ""
  }

  /** `max_search_results`: the given value clamped into 1..50, or 12. */
  function ClampMax(max: Option<real>): (n: real)
    ensures MinMaxResults <= n <= MaxMaxResults
    ensures max.None? ==> n == DefaultMaxResults
    ensures max.Some? && MinMaxResults <= max.value <= MaxMaxResults ==> n == max.value
    ensures max.Some? && max.value < MinMaxResults ==> n == MinMaxResults
    ensures max.Some? && max.value > MaxMaxResults ==> n == MaxMaxResults
  {
    match max
    case None => DefaultMaxResults
    case Some(x) =>
      var atLeastOne := if x < MinMaxResults then MinMaxResults else x;
      if atLeastOne > MaxMaxResults then MaxMaxResults else atLeastOne
  }

  /** A key of the X source is set only for a non-empty list. */
  function NonEmpty(list: seq<string>): (r: Option<seq<string>>)
    ensures r.Some? <==> |list| > 0
    ensures r.Some? ==> r.value == list
  {
    if |list| > 0 then Some(list) else None
  }

  /** The checks in the order the script makes them, each ending the run with
      exit code 2, then the request the script would send. */
  function Build(args: Args, env: Env): (r: Result<Request, UsageReason>)
    ensures !Given(args.q) ==> r == Err(MissingQuery)
    ensures Given(args.q) && |args.includes| > 0 && |args.excludes| > 0 ==> r == Err(IncludeWithExclude)
    ensures Given(args.q) && !(|args.includes| > 0 && |args.excludes| > 0) && !Given(env.apiKey)
            ==> r == Err(MissingApiKey)
    ensures r.Ok? <==>
      && Given(args.q)
      && !(|args.includes| > 0 && |args.excludes| > 0)
      && Given(env.apiKey)
      && EnsureIso(args.from).Ok? && EnsureIso(args.to).Ok?
    ensures r.Err? && Given(args.q) && !(|args.includes| > 0 && |args.excludes| > 0) && Given(env.apiKey)
            ==> r.error == (if EnsureIso(args.from).Err? then EnsureIso(args.from).error
                            else EnsureIso(args.to).error)
    ensures r.Ok? ==> r.value.query == args.q.value
    ensures r.Ok? ==> r.value.model == env.modelOverride.GetOr(DefaultModel)
    ensures r.Ok? ==> r.value.search.mode == args.mode.GetOr(Auto)
    ensures r.Ok? ==> r.value.search.maxResults == ClampMax(args.max)
    ensures r.Ok? ==> r.value.search.fromDate == (if Given(args.from) then args.from else None)
    ensures r.Ok? ==> r.value.search.toDate == (if Given(args.to) then args.to else None)
    ensures r.Ok? ==> r.value.search.source.favoriteCount == args.minFaves
    ensures r.Ok? ==> r.value.search.source.viewCount == args.minViews
    ensures r.Ok? ==> var src := r.value.search.source;
      && (src.includedHandles.Some? <==> |args.includes| > 0)
      && (src.excludedHandles.Some? <==> |args.excludes| > 0)
      && !(src.includedHandles.Some? && src.excludedHandles.Some?)
      && (src.includedHandles.Some? ==> src.includedHandles.value == NormalizeHandles(args.includes))
      && (src.excludedHandles.Some? ==> src.excludedHandles.value == NormalizeHandles(args.excludes))
  {
    if !Given(args.q) then Err(MissingQuery)
    else if |args.includes| > 0 && |args.excludes| > 0 then Err(IncludeWithExclude)
    else if !Given(env.apiKey) then Err(MissingApiKey)
    else
      var included := NormalizeHandles(args.includes);
      var excluded := NormalizeHandles(args.excludes);
      var source := XSource(NonEmpty(included), NonEmpty(excluded), args.minFaves, args.minViews);
      var from :- EnsureIso(args.from);
      var to :- EnsureIso(args.to);
      Ok(Request(env.modelOverride.GetOr(DefaultModel), args.q.value,
                 SearchParameters(args.mode.GetOr(Auto), ClampMax(args.max), from, to, source)))
  }

  /** Clamping is idempotent: a value already produced is kept as it is. */
  lemma ClampMaxIdempotent(max: Option<real>)
    ensures ClampMax(Some(ClampMax(max))) == ClampMax(max)
  {
  }

  /** Clamping preserves order. */
  lemma ClampMaxMonotone(x: real, y: real)
    requires x <= y
    ensures ClampMax(Some(x)) <= ClampMax(Some(y))
  {
  }
}

=== FILE: response.dfy ===
/** What the script makes of a parsed response: the answer text, the
    citations (reported by the API, or else the X/Twitter URLs found in the
    text), the usage block and the model name. */
module Response {
  import opened Wrappers
  import opened JsText
  import opened Sequences
  import opened Http

  /** Characters that end a URL for `/https?:\/\/[^\s)]+/`: `\s` is the same
      whitespace set as `trim`, plus the closing parenthesis. */
  predicate IsStop(c: char) {
    IsWhitespace(c) || c == ')'
  }

  /** Length of the scheme `https://` or `http://` starting at `p`, or 0. */
  function SchemeAt(text: string, p: nat): (n: nat)
    ensures n == 0 || n == 7 || n == 8
    ensures n > 0 ==> p + n <= |text|
  {
    if p <= |text| && StartsWith(text[p..], "https://") then 8
    else if p <= |text| && StartsWith(text[p..], "http://") then 7
    else 0
  }

  /** The pattern matches at `p`: a scheme followed by at least one character
      that is not a stop. */
  predicate MatchAt(text: string, p: nat) {
    var n := SchemeAt(text, p);
    n > 0 && p + n < |text| && !IsStop(text[p + n])
  }

  /** The first stop at or after `q`, or the end of the text. */
  function RunEnd(text: string, q: nat): (e: nat)
    requires q <= |text|
    ensures q <= e <= |text|
    ensures forall k :: q <= k < e ==> !IsStop(text[k])
    ensures e < |text| ==> IsStop(text[e])
    decreases |text| - q
  {
    if q == |text| || IsStop(text[q]) then q else RunEnd(text, q + 1)
  }

  datatype Span = Span(start: nat, end: nat)

  /** A maximal match starting at `s`: the greedy repetition runs to the
      first stop. */
  predicate IsMatchSpan(text: string, m: Span) {
    && m.start < m.end <= |text|
    && MatchAt(text, m.start)
    && m.end == RunEnd(text, m.start + SchemeAt(text, m.start))
  }

  /** `matchAll` from position `p`: matches are found left to right, each
      search resuming where the previous match ended. */
  function ScanFrom(text: string, p: nat): (ms: seq<Span>)
    requires p <= |text|
    ensures forall i :: 0 <= i < |ms| ==> p <= ms[i].start < ms[i].end <= |text|
    decreases |text| - p
  {
    if p == |text| then []
    else if MatchAt(text, p) then
      var e := RunEnd(text, p + SchemeAt(text, p));
      [Span(p, e)] + ScanFrom(text, e)
    else
      ScanFrom(text, p + 1)
  }

  /** Every match is maximal. */
  lemma {:induction false} ScanMatches(text: string, p: nat)
    requires p <= |text|
    ensures forall i :: 0 <= i < |ScanFrom(text, p)| ==> IsMatchSpan(text, ScanFrom(text, p)[i])
    decreases |text| - p
  {
    if p < |text| {
      if MatchAt(text, p) {
        var e := RunEnd(text, p + SchemeAt(text, p));
        ScanMatches(text, e);
        var rest := ScanFrom(text, e);
        assert ScanFrom(text, p) == [Span(p, e)] + rest;
      } else {
        ScanMatches(text, p + 1);
      }
    }
  }

  /** The spans are ordered and do not overlap. */
  predicate Disjoint(ms: seq<Span>) {
    forall i, j :: 0 <= i < j < |ms| ==> ms[i].end <= ms[j].start
  }

  /** Position `q` lies inside one of the spans. */
  predicate Covers(ms: seq<Span>, q: nat) {
    exists i :: 0 <= i < |ms| && ms[i].start <= q < ms[i].end
  }

  /** The matches are ordered and disjoint. */
  lemma {:induction false} ScanOrdered(text: string, p: nat)
    requires p <= |text|
    ensures Disjoint(ScanFrom(text, p))
    decreases |text| - p
  {
    if p < |text| {
      if MatchAt(text, p) {
        var e := RunEnd(text, p + SchemeAt(text, p));
        ScanOrdered(text, e);
        var rest := ScanFrom(text, e);
        var ms := [Span(p, e)] + rest;
        assert ScanFrom(text, p) == ms;
        forall i, j | 0 <= i < j < |ms| ensures ms[i].end <= ms[j].start {
          assert ms[j] == rest[j - 1];
          if i > 0 {
            assert ms[i] == rest[i - 1];
          } else {
            assert ms[0].end == e <= rest[j - 1].start;
          }
        }
      } else {
        var next := ScanFrom(text, p + 1);
        assert ScanFrom(text, p) == next;
        ScanOrdered(text, p + 1);
      }
    }
  }

  /** Every position where the pattern could start lies inside a match: no
      URL is skipped. */
  lemma {:induction false} ScanCovers(text: string, p: nat, q: nat)
    requires p <= q < |text| && MatchAt(text, q)
    ensures Covers(ScanFrom(text, p), q)
    decreases |text| - p
  {
    if MatchAt(text, p) {
      var e := RunEnd(text, p + SchemeAt(text, p));
      var rest := ScanFrom(text, e);
      assert ScanFrom(text, p) == [Span(p, e)] + rest;
      if q < e {
        CoversFirst(Span(p, e), rest, q);
      } else {
        ScanCovers(text, e, q);
        CoversLater(Span(p, e), rest, q);
      }
    } else {
      assert ScanFrom(text, p) == ScanFrom(text, p + 1);
      ScanCovers(text, p + 1, q);
    }
  }

  lemma CoversFirst(m: Span, rest: seq<Span>, q: nat)
    requires m.start <= q < m.end
    ensures Covers([m] + rest, q)
  {
    assert ([m] + rest)[0] == m;
  }

  lemma CoversLater(m: Span, rest: seq<Span>, q: nat)
    requires Covers(rest, q)
    ensures Covers([m] + rest, q)
  {
    var i :| 0 <= i < |rest| && rest[i].start <= q < rest[i].end;
    assert ([m] + rest)[i + 1] == rest[i];
  }

  function Scan(text: string): seq<Span> {
    ScanFrom(text, 0)
  }

  /** The matched URL strings, in order. */
  function Urls(text: string): (us: seq<string>)
    ensures |us| == |Scan(text)|
    ensures forall i :: 0 <= i < |us| ==> us[i] == text[Scan(text)[i].start..Scan(text)[i].end]
  {
    var ms := Scan(text);
    seq(|ms|, i requires 0 <= i < |ms| => text[ms[i].start..ms[i].end])
  }

  /** A string the pattern matches in full. */
  predicate IsUrlText(u: string) {
    var n := SchemeAt(u, 0);
    && n > 0 && n < |u|
    && forall k :: n <= k < |u| ==> !IsStop(u[k])
  }

  lemma StartsWithCut(t: string, e: nat, prefix: string)
    requires e <= |t|
    ensures StartsWith(t[..e], prefix) ==> StartsWith(t, prefix)
    ensures StartsWith(t, prefix) && |prefix| <= e ==> StartsWith(t[..e], prefix)
  {
    if |prefix| <= e {
      assert t[..e][..|prefix|] == t[..|prefix|];
    }
  }

  /** A match span keeps its scheme when cut out of the text. */
  lemma SchemeOfSpan(text: string, m: Span)
    requires IsMatchSpan(text, m)
    ensures SchemeAt(text[m.start..m.end], 0) == SchemeAt(text, m.start)
  {
    var t := text[m.start..];
    var u := text[m.start..m.end];
    assert u == t[..m.end - m.start];
    assert u[0..] == u && text[m.start..] == t;
    StartsWithCut(t, m.end - m.start, "https://");
    StartsWithCut(t, m.end - m.start, "http://");
  }

  /** Every extracted URL is a full match of the pattern. */
  lemma UrlsAreMatches(text: string, i: nat)
    requires i < |Urls(text)|
    ensures IsUrlText(Urls(text)[i])
  {
    ScanMatches(text, 0);
    var m := Scan(text)[i];
    var u := text[m.start..m.end];
    SchemeOfSpan(text, m);
    assert forall k :: 0 <= k < |u| ==> u[k] == text[m.start + k];
  }

  /** A text that is one URL yields exactly that URL. */
  lemma SingleUrl(u: string)
    requires IsUrlText(u)
    ensures Urls(u) == [u]
  {
    var n := SchemeAt(u, 0);
    assert MatchAt(u, 0);
    RunEndAtEnd(u, n);
    assert ScanFrom(u, |u|) == [];
    assert u[0..|u|] == u;
  }

  lemma {:induction false} RunEndAtEnd(text: string, q: nat)
    requires q <= |text|
    requires forall k :: q <= k < |text| ==> !IsStop(text[k])
    ensures RunEnd(text, q) == |text|
    decreases |text| - q
  {
    if q < |text| {
      RunEndAtEnd(text, q + 1);
    }
  }

  /** `/(^https?:\/\/(x\.com|twitter\.com)\/)/i`: case-insensitive, and the
      only letters involved are ASCII. */
  predicate IsXUrl(u: string) {
    var l := Lower(u);
    || StartsWith(l, "https://x.com/") || StartsWith(l, "http://x.com/")
    || StartsWith(l, "https://twitter.com/") || StartsWith(l, "http://twitter.com/")
  }

  /** `urls.filter(...)`: the X/Twitter URLs, in order. */
  function XUrls(us: seq<string>): (r: seq<string>)
    ensures forall i :: 0 <= i < |r| ==> IsXUrl(r[i]) && r[i] in us
    ensures forall i :: 0 <= i < |us| && IsXUrl(us[i]) ==> us[i] in r
    ensures |r| <= |us|
  {
    if |us| == 0 then []
    else
      var rest := XUrls(us[1..]);
      assert forall i :: 1 <= i < |us| ==> us[i] == us[1..][i - 1];
      if IsXUrl(us[0]) then [us[0]] + rest else rest
  }

  /** The fallback when no citations are reported: the distinct X/Twitter
      URLs of the text in first-occurrence order, or `null` when there are
      none. */
  function FallbackCitations(text: string): (r: Option<seq<string>>)
    ensures r.Some? ==> |r.value| > 0 && NoDuplicates(r.value)
    ensures r.Some? ==> forall i :: 0 <= i < |r.value| ==> IsXUrl(r.value[i]) && r.value[i] in Urls(text)
    ensures r.None? <==> forall i :: 0 <= i < |Urls(text)| ==> !IsXUrl(Urls(text)[i])
    ensures forall i :: 0 <= i < |Urls(text)| && IsXUrl(Urls(text)[i]) ==> r.Some? && Urls(text)[i] in r.value
  {
    var xs := XUrls(Urls(text));
    if |xs| == 0 then None
    else
      var d := Dedup(xs);
      assert xs[0] in d;
      Some(d)
  }

  /** Filtering distributes over concatenation: `XUrls` keeps the X/Twitter
      URLs of each part, in place. */
  lemma {:induction false} XUrlsAppend(a: seq<string>, b: seq<string>)
    ensures XUrls(a + b) == XUrls(a) + XUrls(b)
  {
    if |a| > 0 {
      assert (a + b)[1..] == a[1..] + b;
      XUrlsAppend(a[1..], b);
    } else {
      assert a + b == b;
    }
  }

  /** Two X/Twitter URLs keep their relative order of first occurrence. */
  lemma {:induction false} XUrlsKeepOrder(us: seq<string>, x: string, y: string)
    requires x in XUrls(us) && y in XUrls(us)
    requires FirstIndex(XUrls(us), x) < FirstIndex(XUrls(us), y)
    ensures x in us && y in us && FirstIndex(us, x) < FirstIndex(us, y)
  {
    var rest := XUrls(us[1..]);
    if IsXUrl(us[0]) {
      assert XUrls(us) == [us[0]] + rest;
      if x != us[0] {
        assert y != us[0];
        assert XUrls(us)[1..] == rest;
        XUrlsKeepOrder(us[1..], x, y);
      }
    } else {
      assert x != us[0] && y != us[0];
      XUrlsKeepOrder(us[1..], x, y);
    }
  }

  /** The fallback citations follow the order in which each URL first
      appears in the text. */
  lemma FallbackCitationsOrder(text: string, i: nat, j: nat)
    requires FallbackCitations(text).Some?
    requires i < j < |FallbackCitations(text).value|
    ensures FirstIndex(Urls(text), FallbackCitations(text).value[i])
          < FirstIndex(Urls(text), FallbackCitations(text).value[j])
  {
    var xs := XUrls(Urls(text));
    DedupFirstOccurrenceOrder(xs, i, j);
    XUrlsKeepOrder(Urls(text), Dedup(xs)[i], Dedup(xs)[j]);
  }

  /** `choices[0].message.content ?? choices[0].delta.content ?? ""`. */
  function TextOf(resp: ApiResponse): string {
    resp.messageContent.OrElse(resp.deltaContent).GetOr("")
  }

  /** Message content wins over delta content; with neither the text is
      empty. */
  lemma TextPriority(resp: ApiResponse)
    ensures resp.messageContent.Some? ==> TextOf(resp) == resp.messageContent.value
    ensures resp.messageContent.None? && resp.deltaContent.Some? ==> TextOf(resp) == resp.deltaContent.value
    ensures resp.messageContent.None? && resp.deltaContent.None? ==> TextOf(resp) == ""
  {
  }

  /** The first citation value present, in the order the script asks. */
  function ReportedCitations(resp: ApiResponse): Option<seq<string>> {
    resp.citations.OrElse(resp.messageCitations).OrElse(resp.extraCitations)
  }

  /** The JSON object the script prints. */
  datatype Output = Output(
    query: string,
    summary: string,
    citations: Option<seq<string>>,
    usage: Option<string>,
    model: string)

  /** The printed object for a successful response. A reported citation
      array is kept as it is, even an empty one; only when none is reported
      are URLs taken from the text. */
  function Respond(query: string, model: string, resp: ApiResponse): (out: Output)
    ensures out.query == query
    ensures out.summary == Trim(TextOf(resp))
    ensures ReportedCitations(resp).Some? ==> out.citations == ReportedCitations(resp)
    ensures ReportedCitations(resp).None? ==> out.citations == FallbackCitations(TextOf(resp))
    ensures out.citations.None? <==>
      ReportedCitations(resp).None? && forall i :: 0 <= i < |Urls(TextOf(resp))| ==> !IsXUrl(Urls(TextOf(resp))[i])
    ensures out.usage == resp.usage
    ensures resp.model.Some? ==> out.model == resp.model.value
    ensures resp.model.None? ==> out.model == model
  {
    var text := TextOf(resp);
    var citations := if ReportedCitations(resp).Some? then ReportedCitations(resp) else FallbackCitations(text);
    Output(query, Trim(text), citations, resp.usage, resp.model.GetOr(model))
  }

  /** The top-level `citations` field wins over the message's, which wins
      over `extra.citations`. */
  lemma CitationPriority(query: string, model: string, resp: ApiResponse)
    ensures resp.citations.Some? ==> Respond(query, model, resp).citations == resp.citations
    ensures resp.citations.None? && resp.messageCitations.Some? ==>
              Respond(query, model, resp).citations == resp.messageCitations
    ensures resp.citations.None? && resp.messageCitations.None? && resp.extraCitations.Some? ==>
              Respond(query, model, resp).citations == resp.extraCitations
  {
  }

  /** Message content padded with whitespace is summarised as its core. */
  lemma SummaryOfPaddedContent(query: string, model: string, resp: ApiResponse,
                               pre: string, core: string, post: string)
    requires resp.messageContent == Some(pre + core + post)
    requires AllWhitespace(pre) && AllWhitespace(post)
    requires |core| > 0 && !IsWhitespace(core[0]) && !IsWhitespace(core[|core| - 1])
    ensures Respond(query, model, resp).summary == core
  {
    TrimPadded(pre, core, post);
  }

  /** An answer that is one X URL and reports no citations cites that URL. */
  lemma LoneXUrlCited(query: string, model: string, resp: ApiResponse, u: string)
    requires ReportedCitations(resp).None?
    requires TextOf(resp) == u && IsUrlText(u) && IsXUrl(u)
    ensures Respond(query, model, resp).citations == Some([u])
  {
    SingleUrl(u);
    assert XUrls([u]) == [u] by {
      assert [u][1..] == [];
    }
    assert Dedup([u]) == [u] by {
      assert [u][..0] == [];
    }
  }
}

=== FILE: retry.dfy ===
/** `computeBackoffMs` and the decision logic of `fetchWithRetry`. The
    attempts' outcomes are an input sequence (an attempt past its end never
    gets an answer, so its timeout aborts it like a transport error), and the
    `Math.random()` values are an input sequence with one value per attempt.
    The result is the verdict, the delays slept between attempts, and the
    number of attempts made. */
module Retry {
  import opened Wrappers
  import opened JsNumber
  import opened Failures
  import opened Http
  import opened JsText

  const DefaultAttempts: int := 3
  const BaseDelayMs: nat := 500
  const JitterSpanMs: nat := 250
  const RetriableStatuses: set<int> := {408, 429, 500, 502, 503, 504}

  function Pow2(n: nat): (p: nat)
    ensures p >= 1
  {
    if n == 0 then 1 else 2 * Pow2(n - 1)
  }

  predicate IsDraw(x: real) {
    0.0 <= x < 1.0
  }

  predicate AllDraws(draws: seq<real>) {
    forall k :: 0 <= k < |draws| ==> IsDraw(draws[k])
  }

  /** `Math.floor(Math.random() * 250)` */
  function Jitter(draw: real): (j: int)
    requires IsDraw(draw)
    ensures 0 <= j < JitterSpanMs
  {
    (draw * JitterSpanMs as real).Floor
  }

  /** `computeBackoffMs(attempt)`: the doubled base delay plus a jitter below 250 ms. */
  function BackoffMs(attempt: nat, draw: real): (ms: int)
    requires attempt >= 1 && IsDraw(draw)
    ensures BaseDelayMs * Pow2(attempt - 1) <= ms < BaseDelayMs * Pow2(attempt - 1) + JitterSpanMs
  {
    BaseDelayMs * Pow2(attempt - 1) + Jitter(draw)
  }

  lemma {:induction false} Pow2Doubles(a: nat, b: nat)
    requires a < b
    ensures 2 * Pow2(a) <= Pow2(b)
    decreases b - a
  {
    if a + 1 < b {
      Pow2Doubles(a + 1, b);
    }
  }

  /** Computed backoffs grow strictly with the attempt number, whatever the
      jitters drawn: the jitter span is below the base delay. */
  lemma BackoffIncreasing(i: nat, j: nat, draw1: real, draw2: real)
    requires 1 <= i < j && IsDraw(draw1) && IsDraw(draw2)
    ensures BackoffMs(i, draw1) < BackoffMs(j, draw2)
  {
    Pow2Doubles(i - 1, j - 1);
    var p := Pow2(i - 1);
    assert BaseDelayMs * Pow2(j - 1) >= BaseDelayMs * (2 * p);
  }

  /** `retryAfter ? Number(retryAfter) * 1000 : computeBackoffMs(attempt)`;
      an empty header is falsy. */
  function StatusDelay(retryAfter: Option<string>, attempt: nat, draw: real): (d: Number)
    requires attempt >= 1 && IsDraw(draw)
    ensures (retryAfter.None? || retryAfter.value == "") ==>
              d.Finite? && (BaseDelayMs * Pow2(attempt - 1)) as real <= d.v < (BaseDelayMs * Pow2(attempt - 1) + JitterSpanMs) as real
    ensures d.NaN? <==> retryAfter.Some? && retryAfter.value != "" && StringToNumber(retryAfter.value).NaN?
    ensures d.Finite? && d.v < 0.0 ==> retryAfter.Some? && retryAfter.value != ""
  {
    if retryAfter.Some? && retryAfter.value != "" then Times(ToNumber(retryAfter), 1000.0)
    else Finite(BackoffMs(attempt, draw) as real)
  }

  /** The outcome takes the `catch` branch: the fetch threw, or reading the
      body of an error response threw. */
  predicate Throws(o: Attempt) {
    o.TransportFailure? || (!IsOk(o.status) && o.body.Unreadable?)
  }

  /** After attempt number `attempt` with outcome `o`, the loop goes on. */
  predicate Retries(o: Attempt, attempt: int, attempts: int) {
    && attempt < attempts
    && (Throws(o) || (!IsOk(o.status) && o.status in RetriableStatuses))
  }

  /** The delay slept after an attempt that the loop goes on from. */
  function DelayAfter(o: Attempt, attempt: nat, draw: real): Number
    requires attempt >= 1 && IsDraw(draw)
  {
    if Throws(o) then Finite(BackoffMs(attempt, draw) as real)
    else StatusDelay(o.retryAfter, attempt, draw)
  }

  datatype Verdict = Delivered(status: int, body: Body) | Failed(failure: Failure)

  /** How an attempt that ends the loop ends the call. */
  function Final(o: Attempt): (v: Verdict)
    ensures v.Failed? ==> v.failure.Http? || v.failure.Network?
  {
    if o.Answered? && IsOk(o.status) then Delivered(o.status, o.body)
    else if Throws(o) then Failed(Network)
    else Failed(Http(o.status))
  }

  datatype RetryRun = RetryRun(verdict: Verdict, delays: seq<Number>, attemptsMade: nat)

  function OutcomeAt(outcomes: seq<Attempt>, k: nat): Attempt {
    if k < |outcomes| then outcomes[k] else TransportFailure
  }

  /** The delay the loop sleeps after each attempt it goes on from: entry `k`
      belongs to attempt `k + 1` and depends on that attempt's outcome and
      random draw alone. */
  function Schedule(attempts: int, outcomes: seq<Attempt>, draws: seq<real>): (plan: seq<Number>)
    requires AllDraws(draws) && attempts <= |draws|
    ensures |plan| == if attempts < 0 then 0 else attempts
    ensures forall k :: 0 <= k < |plan| ==> plan[k] == DelayAfter(OutcomeAt(outcomes, k), k + 1, draws[k])
    decreases attempts
  {
    if attempts <= 0 then []
    else
      var init := Schedule(attempts - 1, outcomes, draws);
      init + [DelayAfter(OutcomeAt(outcomes, attempts - 1), attempts, draws[attempts - 1])]
  }

  /** The `for` loop from attempt number `attempt` on, having slept `delays`;
      `plan` is the schedule of delays. */
  function RetryFrom(attempts: int, outcomes: seq<Attempt>, plan: seq<Number>,
                     attempt: nat, delays: seq<Number>): RetryRun
    requires attempt >= 1 && attempts <= |plan|
    decreases if attempt <= attempts then attempts - attempt + 1 else 0
  {
    if attempt > attempts then RetryRun(Failed(Network), delays, attempt - 1)
    else
      var o := OutcomeAt(outcomes, attempt - 1);
      if o.Answered? && IsOk(o.status) then RetryRun(Delivered(o.status, o.body), delays, attempt)
      else if Throws(o) then
        if attempt == attempts then RetryRun(Failed(Network), delays, attempt)
        else RetryFrom(attempts, outcomes, plan, attempt + 1, delays + [plan[attempt - 1]])
      else if o.status !in RetriableStatuses || attempt == attempts then
        RetryRun(Failed(Http(o.status)), delays, attempt)
      else
        RetryFrom(attempts, outcomes, plan, attempt + 1, delays + [plan[attempt - 1]])
  }

  function RunRetries(attempts: int, outcomes: seq<Attempt>, draws: seq<real>): RetryRun
    requires AllDraws(draws) && attempts <= |draws|
  {
    RetryFrom(attempts, outcomes, Schedule(attempts, outcomes, draws), 1, [])
  }

  /** `fetchWithRetry` as a loop over attempts, as the source writes it. */
  method FetchWithRetry(attempts: int, outcomes: seq<Attempt>, draws: seq<real>) returns (run: RetryRun)
    requires AllDraws(draws) && attempts <= |draws|
    ensures run == RunRetries(attempts, outcomes, draws)
    ensures run.attemptsMade <= if attempts < 0 then 0 else attempts
    ensures run.verdict.Failed? ==> run.verdict.failure.Http? || run.verdict.failure.Network?
  {
    ghost var plan := Schedule(attempts, outcomes, draws);
    var delays: seq<Number> := [];
    var attempt: nat := 1;
    while attempt <= attempts
      invariant 1 <= attempt && (attempts >= 1 ==> attempt <= attempts)
      invariant RunRetries(attempts, outcomes, draws) == RetryFrom(attempts, outcomes, plan, attempt, delays)
      invariant |delays| == attempt - 1
      decreases attempts - attempt
    {
      var o := OutcomeAt(outcomes, attempt - 1);
      if o.Answered? && IsOk(o.status) {
        return RetryRun(Delivered(o.status, o.body), delays, attempt);
      }
      if Throws(o) {
        if attempt == attempts {
          break;
        }
        delays := delays + [Finite(BackoffMs(attempt, draws[attempt - 1]) as real)];
      } else if o.status !in RetriableStatuses || attempt == attempts {
        return RetryRun(Failed(Http(o.status)), delays, attempt);
      } else {
        delays := delays + [StatusDelay(o.retryAfter, attempt, draws[attempt - 1])];
      }
      attempt := attempt + 1;
    }
    run := RetryRun(Failed(Network), delays, if attempts >= 1 then attempts else 0);
  }

  /** Attempts `lo + 1` to `hi` (0-based `lo` to `hi - 1`) all let the loop go on. */
  predicate RetriedThrough(attempts: int, outcomes: seq<Attempt>, lo: nat, hi: nat) {
    forall k :: lo <= k < hi ==> Retries(OutcomeAt(outcomes, k), k + 1, attempts)
  }

  /** `delays[k]` is the scheduled delay after attempt `k + 1`, for `lo <= k < hi`. */
  predicate SleptAfter(delays: seq<Number>, plan: seq<Number>, lo: nat, hi: nat) {
    && hi <= |delays| && hi <= |plan|
    && forall k :: lo <= k < hi ==> delays[k] == plan[k]
  }

  /** The run stops at the first attempt it does not go on from; that attempt
      alone decides the verdict, and one delay is slept after each earlier
      attempt, the one scheduled for it. */
  predicate StopsAtFirstFinal(attempts: int, outcomes: seq<Attempt>, plan: seq<Number>, from: nat, r: RetryRun) {
    && from < r.attemptsMade <= attempts
    && RetriedThrough(attempts, outcomes, from, r.attemptsMade - 1)
    && !Retries(OutcomeAt(outcomes, r.attemptsMade - 1), r.attemptsMade, attempts)
    && r.verdict == Final(OutcomeAt(outcomes, r.attemptsMade - 1))
    && |r.delays| == r.attemptsMade - 1
    && SleptAfter(r.delays, plan, from, r.attemptsMade - 1)
  }

  /** Each delay is the one computed from the attempt before it and its draw. */
  predicate DelaysComputed(delays: seq<Number>, outcomes: seq<Attempt>, draws: seq<real>)
    requires AllDraws(draws)
  {
    forall k :: 0 <= k < |delays| ==>
      k < |draws| && delays[k] == DelayAfter(OutcomeAt(outcomes, k), k + 1, draws[k])
  }

  lemma RetryFromStep(attempts: int, outcomes: seq<Attempt>, plan: seq<Number>, a: nat, delays: seq<Number>)
    requires 1 <= a <= attempts <= |plan|
    requires Retries(OutcomeAt(outcomes, a - 1), a, attempts)
    ensures RetryFrom(attempts, outcomes, plan, a, delays)
         == RetryFrom(attempts, outcomes, plan, a + 1, delays + [plan[a - 1]])
  {
  }

  lemma RetryFromFinal(attempts: int, outcomes: seq<Attempt>, plan: seq<Number>, a: nat, delays: seq<Number>)
    requires 1 <= a <= attempts <= |plan|
    requires !Retries(OutcomeAt(outcomes, a - 1), a, attempts)
    ensures RetryFrom(attempts, outcomes, plan, a, delays)
         == RetryRun(Final(OutcomeAt(outcomes, a - 1)), delays, a)
  {
  }

  lemma {:induction false} RetryFromStops(attempts: int, outcomes: seq<Attempt>, plan: seq<Number>,
                                          a: nat, delays: seq<Number>)
    requires 1 <= a <= attempts <= |plan|
    requires |delays| == a - 1
    ensures StopsAtFirstFinal(attempts, outcomes, plan, a - 1, RetryFrom(attempts, outcomes, plan, a, delays))
    ensures RetryFrom(attempts, outcomes, plan, a, delays).delays[..a - 1] == delays
    decreases attempts - a
  {
    var o := OutcomeAt(outcomes, a - 1);
    if Retries(o, a, attempts) {
      var d := plan[a - 1];
      RetryFromStep(attempts, outcomes, plan, a, delays);
      RetryFromStops(attempts, outcomes, plan, a + 1, delays + [d]);
      var r := RetryFrom(attempts, outcomes, plan, a + 1, delays + [d]);
      assert r.delays[..a] == delays + [d];
      assert r.delays[..a - 1] == delays by {
        assert r.delays[..a - 1] == r.delays[..a][..a - 1];
      }
      assert r.delays[a - 1] == d by {
        assert r.delays[a - 1] == r.delays[..a][a - 1];
      }
    } else {
      RetryFromFinal(attempts, outcomes, plan, a, delays);
    }
  }

  /** Whole-run characterization of `fetchWithRetry` for at least one attempt. */
  lemma RetryStops(attempts: int, outcomes: seq<Attempt>, draws: seq<real>)
    requires 1 <= attempts && AllDraws(draws) && attempts <= |draws|
    ensures StopsAtFirstFinal(attempts, outcomes, Schedule(attempts, outcomes, draws), 0,
                              RunRetries(attempts, outcomes, draws))
    ensures DelaysComputed(RunRetries(attempts, outcomes, draws).delays, outcomes, draws)
  {
    var plan := Schedule(attempts, outcomes, draws);
    RetryFromStops(attempts, outcomes, plan, 1, []);
    ScheduledDelays(RunRetries(attempts, outcomes, draws).delays, plan, attempts, outcomes, draws);
  }

  /** Delays taken from the schedule are the computed ones. */
  lemma ScheduledDelays(delays: seq<Number>, plan: seq<Number>, attempts: int,
                        outcomes: seq<Attempt>, draws: seq<real>)
    requires AllDraws(draws) && attempts <= |draws|
    requires plan == Schedule(attempts, outcomes, draws)
    requires |delays| <= |plan| && SleptAfter(delays, plan, 0, |delays|)
    ensures DelaysComputed(delays, outcomes, draws)
  {
  }

  /** A server that keeps answering the same retriable status without a
      `retry-after` header is asked `attempts` times; the script then fails
      with that status, having slept strictly growing computed backoffs. */
  lemma PersistentRetriableStatus(attempts: int, outcomes: seq<Attempt>, draws: seq<real>, status: int)
    requires 1 <= attempts && AllDraws(draws) && attempts <= |draws|
    requires status in RetriableStatuses
    requires forall k: nat :: k < attempts ==>
      var o := OutcomeAt(outcomes, k);
      o.Answered? && o.status == status && o.retryAfter == None && !o.body.Unreadable?
    ensures var r := RunRetries(attempts, outcomes, draws);
      && r.verdict == Failed(Http(status))
      && r.attemptsMade == attempts
      && (forall i :: 0 <= i < |r.delays| ==> r.delays[i].Finite?)
      && (forall i, j :: 0 <= i < j < |r.delays| ==> r.delays[i].v < r.delays[j].v)
  {
    RetryStops(attempts, outcomes, draws);
    var r := RunRetries(attempts, outcomes, draws);
    var m := r.attemptsMade;
    var last := OutcomeAt(outcomes, m - 1);
    assert last.Answered? && last.status == status && !IsOk(status);
    assert m == attempts;
    forall i | 0 <= i < |r.delays|
      ensures r.delays[i] == Finite(BackoffMs(i + 1, draws[i]) as real)
    {
      var o := OutcomeAt(outcomes, i);
      assert r.delays[i] == DelayAfter(o, i + 1, draws[i]);
      assert o.Answered? && o.retryAfter == None && !Throws(o);
    }
    forall i, j | 0 <= i < j < |r.delays|
      ensures r.delays[i].v < r.delays[j].v
    {
      BackoffIncreasing(i + 1, j + 1, draws[i], draws[j]);
    }
  }

  /** A 429 answer followed by a success: one delay, then the success body. */
  lemma RateLimitedThenOk(attempts: int, outcomes: seq<Attempt>, draws: seq<real>,
                          retryAfter: Option<string>, first: Body, status: int, body: Body)
    requires 2 <= attempts && AllDraws(draws) && attempts <= |draws|
    requires OutcomeAt(outcomes, 0) == Answered(429, retryAfter, first) && !first.Unreadable?
    requires OutcomeAt(outcomes, 1).Answered? && OutcomeAt(outcomes, 1).status == status && IsOk(status)
    requires OutcomeAt(outcomes, 1).body == body
    ensures RunRetries(attempts, outcomes, draws)
         == RetryRun(Delivered(status, body), [StatusDelay(retryAfter, 1, draws[0])], 2)
  {
    var plan := Schedule(attempts, outcomes, draws);
    RetriedOnceThenOk(attempts, outcomes, plan, status, body);
    ScheduledStatusDelay(attempts, outcomes, draws, 0);
  }

  lemma RetriedOnceThenOk(attempts: int, outcomes: seq<Attempt>, plan: seq<Number>, status: int, body: Body)
    requires 2 <= attempts <= |plan|
    requires Retries(OutcomeAt(outcomes, 0), 1, attempts)
    requires OutcomeAt(outcomes, 1).Answered? && OutcomeAt(outcomes, 1).status == status && IsOk(status)
    requires OutcomeAt(outcomes, 1).body == body
    ensures RetryFrom(attempts, outcomes, plan, 1, []) == RetryRun(Delivered(status, body), [plan[0]], 2)
  {
    RetryFromStep(attempts, outcomes, plan, 1, []);
    RetryFromFinal(attempts, outcomes, plan, 2, [plan[0]]);
  }

  /** After an answer that did not throw, the scheduled delay is the one
      computed from its status and `retry-after` header. */
  lemma ScheduledStatusDelay(attempts: int, outcomes: seq<Attempt>, draws: seq<real>, k: nat)
    requires AllDraws(draws) && k < attempts <= |draws|
    requires !Throws(OutcomeAt(outcomes, k))
    ensures Schedule(attempts, outcomes, draws)[k] == StatusDelay(OutcomeAt(outcomes, k).retryAfter, k + 1, draws[k])
  {
  }

  /** A `retry-after` header holding whole seconds is slept as that many
      thousand milliseconds. */
  lemma RetryAfterSeconds(ds: string, attempt: nat, draw: real)
    requires attempt >= 1 && IsDraw(draw)
    requires |ds| > 0 && AllDigits(ds) && DigitsValue(ds) < 1000000
    ensures StatusDelay(Some(ds), attempt, draw) == Finite(DigitsValue(ds) as real * 1000.0)
  {
    HeaderDelay(ds, attempt, draw);
    ThousandfoldNumeral(ds);
  }

  lemma HeaderDelay(header: string, attempt: nat, draw: real)
    requires attempt >= 1 && IsDraw(draw) && header != ""
    ensures StatusDelay(Some(header), attempt, draw) == Times(ToNumber(Some(header)), 1000.0)
  {
  }

}

=== FILE: sequences.dfy ===
/** `Array.from(new Set(xs))`: de-duplication that keeps the first occurrence
    of every value, in first-occurrence order, and `slice(0, n)`. */
module Sequences {

  predicate NoDuplicates<T(==)>(xs: seq<T>) {
    forall i, j :: 0 <= i < j < |xs| ==> xs[i] != xs[j]
  }

  /** The index of the first occurrence of `x` in `xs`. */
  function FirstIndex<T(==)>(xs: seq<T>, x: T): (k: nat)
    requires x in xs
    ensures k < |xs| && xs[k] == x
    ensures forall j :: 0 <= j < k ==> xs[j] != x
  {
    if xs[0] == x then 0 else 1 + FirstIndex(xs[1..], x)
  }

  /** Inserting the elements of `xs` one by one into a JavaScript `Set` and
      reading it back in insertion order. */
  function Dedup<T(==)>(xs: seq<T>): (r: seq<T>)
    ensures NoDuplicates(r)
    ensures forall i :: 0 <= i < |r| ==> r[i] in xs
    ensures forall i :: 0 <= i < |xs| ==> xs[i] in r
    ensures |r| <= |xs|
  {
    if |xs| == 0 then []
    else
      var d := Dedup(xs[..|xs| - 1]);
      var x := xs[|xs| - 1];
      assert forall i :: 0 <= i < |xs| - 1 ==> xs[i] == xs[..|xs| - 1][i];
      if x in d then d else d + [x]
  }

  /** The elements of `Dedup(xs)` appear in the order of their first
      occurrence in `xs`. */
  lemma {:induction false} DedupFirstOccurrenceOrder<T>(xs: seq<T>, i: nat, j: nat)
    requires i < j < |Dedup(xs)|
    ensures FirstIndex(xs, Dedup(xs)[i]) < FirstIndex(xs, Dedup(xs)[j])
  {
    var init := xs[..|xs| - 1];
    var d := Dedup(init);
    var x := xs[|xs| - 1];
    FirstIndexOfPrefix(xs, |xs| - 1, Dedup(xs)[i]);
    if j < |d| {
      DedupFirstOccurrenceOrder(init, i, j);
      FirstIndexOfPrefix(xs, |xs| - 1, Dedup(xs)[j]);
    } else {
      assert Dedup(xs)[j] == x && x !in init;
      assert FirstIndex(xs, x) == |xs| - 1 by {
        forall k | 0 <= k < |xs| - 1 ensures xs[k] != x {
          assert xs[k] == init[k];
        }
      }
    }
  }

  /** A value that occurs in a prefix has the same first index in the whole. */
  lemma {:induction false} FirstIndexOfPrefix<T>(xs: seq<T>, n: nat, x: T)
    requires n <= |xs| && x in xs[..n]
    ensures x in xs && FirstIndex(xs, x) == FirstIndex(xs[..n], x)
  {
    assert xs[..n][0] == xs[0];
    if xs[0] != x {
      assert xs[..n][1..] == xs[1..][..n - 1];
      FirstIndexOfPrefix(xs[1..], n - 1, x);
    }
  }

  /** `xs.slice(0, n)` */
  function Take<T>(xs: seq<T>, n: nat): (r: seq<T>)
    ensures |r| == if |xs| <= n then |xs| else n
    ensures forall i :: 0 <= i < |r| ==> r[i] == xs[i]
  {
    if |xs| <= n then xs else xs[..n]
  }

  /** A prefix of a duplicate-free sequence is duplicate-free. */
  lemma TakeNoDuplicates<T>(xs: seq<T>, n: nat)
    requires NoDuplicates(xs)
    ensures NoDuplicates(Take(xs, n))
  {
  }
}

=== FILE: wrappers.dfy ===
/** Failure-compatible Option and Result datatypes used throughout the model.
    `Option` also stands for JavaScript's `undefined`/`null` ("absent"), and
    `OrElse` is the nullish-coalescing operator `??`. */
module Wrappers {

  datatype Option<+T> = None | Some(value: T) {

    /** `this ?? other`: the first present value. */
    function OrElse(other: Option<T>): Option<T> {
      if Some? then this else other
    }

    /** `this ?? default` */
    function GetOr(default: T): T {
      match this
      case Some(v) => v
      case None => default
    }
  }

  datatype Result<+T, +E> = Ok(value: T) | Err(error: E) {

    predicate IsFailure() {
      Err?
    }

    function PropagateFailure<U>(): Result<U, E>
      requires Err?
    {
      Err(error)
    }

    function Extract(): T
      requires Ok?
    {
      value
    }
  }
}
